=== FILE: README.md ===
# Properties codec and trimIndent, modelled in Dafny

This project models two string components of a small library that passes named string values between processes through property files.

**The properties codec** (`src/properties.ts`) handles text made of two kinds of record:
- `key=value\n` records;
- heredoc records `key<<TOKEN\n...\nTOKEN\n`.

`parseProperties` reads such text into a key-to-value record. `stringifyKeyValue` and `stringifyProperties` write it.

**`trimIndent`** (`src/util/trimIndent.ts`), in its plain-string form, does four things:
- strips the line breaks at both ends of a text;
- right-trims the text;
- finds the shortest leading run of spaces, or of tabs, among its lines;
- removes that run from every line that starts with it and right-trims each line.

Files:

- `js_string.dfy`, module `JsString`: the JavaScript string built-ins the code relies on.
  - `substring`, with its clamping and argument swapping;
  - `indexOf`, with its clamped start and its -1;
  - `split("\n")` and `join("\n")`.
- `properties.dfy`, module `Properties`:
  - The parser's loop body is the function `Iterate` on a `State`. The state holds the unread `data`, the separator index and the properties read so far.
  - The whole loop is `Run`. Its `Outcome` is one of three:
    - `Parsed(map)`;
    - `Malformed(key)`, the thrown "unexpected EOF" error;
    - `Diverges`, an iteration that leaves `data` unchanged, so the original loops forever.
  - `ParseProperties` is the loop itself as a `while` method, proved to compute `Parse`.
  - `StringifyProperties` is the writer's `for` loop, proved to compute `Stringify`.
  - `Dialect` selects the parser as written (`AsWritten`) or with the two slips listed under Findings repaired (`Corrected`).
- `properties_laws.dfy`, module `PropertiesLaws`: how the parser reads back what the writer produces, up to the round-trip theorems.
- `properties_behaviour.dfy`, module `PropertiesBehaviour`:
  - worked examples;
  - repeated keys;
  - the unterminated-heredoc error;
  - termination;
  - the two places where the parser as written does not read back the writer's output.
- `trim_indent.dfy`, module `TrimIndent`:
  - `trimEnd`, and the regular expressions as index functions;
  - the indent search loop as the method `FindSmallestIndent`;
  - `trimIndent` as the method `TrimIndent`, specified by `TrimIndentOf`, and the properties of that function.

Where the codec's evident intent and its code differ, the model follows the code:
- The writer and the parser are meant to be inverses: parsing what `stringifyProperties` writes should give the same properties back. The round trips below are proved under the conditions that `EntryOk` and `ClosesAfter` state: every key contains neither `=` nor `<<`, and, for every multi-line entry, the delimiter token holds no line feed, no line of the value after its first line is the token (the closing search starts after the opening line, at line 37 of `src/properties.ts`), and the key does not end in `<` (otherwise `a<` followed by `<<` reads as the key `a`). Under those conditions the code still falls short: it searches only for `<<` after a heredoc record (line 46 of `src/properties.ts`). So the round trip holds only when no single-line entry follows a multi-line one. See Findings.
- The loop is meant to move past the line terminator of each single-line record. With no terminator, the code leaves `data` unchanged and loops. See Findings.

## Model

| member | source | states |
|---|---|---|
| JsString.Substring | src/properties.ts:26-30 | `substring` yields the slice between its two arguments, taken in either order once both are in range, and is never longer than the string |
| JsString.SubstringClamps | src/properties.ts:26-30 | an argument below 0 counts as 0 and one past the end as the length: `substring(i, -1)` is the first `i` characters, as lines 26-29 get when no line feed follows |
| JsString.IndexOfFirst | src/properties.ts:21-24 | `indexOf` skips no occurrence: no match lies between the clamped start and the index it returns, or anywhere after the start when it returns -1 |
| JsString.IndexOfIs | src/properties.ts:37 | the first occurrence at or after an in-range start is exactly what `indexOf` returns |
| JsString.IndexOfNone | src/properties.ts:37-38 | a search from an in-range start past which the pattern never occurs returns -1 |
| JsString.JoinSplit | src/util/trimIndent.ts:44-53 | joining the pieces of `split("\n")` with `"\n"` gives the text back |
| JsString.SplitJoin | src/util/trimIndent.ts:44-53 | splitting the join of lines that hold no line feed gives the same lines back |
| JsString.SplitNoBreak | src/util/trimIndent.ts:31 | no piece of `split("\n")` holds a line feed |
| Properties.FirstSepIs | src/properties.ts:12-16 | the separator search returns the first index holding `=` or starting `<<` |
| Properties.FirstSep | src/properties.ts:12-16 | the index of the first `=` or `<<` in the data, or -1: the search `indexOf(data, EOK)` makes before the first record and after every single-line record; what it returns is always a separator position |
| Properties.Iterate | src/properties.ts:18-46 | one pass of the loop body: cut the key before the separator, search for the line feed after it, and hand over to the single-line or the heredoc branch according to the character at the separator |
| Properties.SingleLineRecord | src/properties.ts:25-32 | the single-line branch: store the text between the `=` and the line feed, drop everything up to the line feed and search again for `=` or `<<`; in the corrected dialect a missing line feed takes the rest of the input and ends the loop |
| Properties.HeredocRecord | src/properties.ts:34-46 | the heredoc branch: take the token line as the closing delimiter, search for it after the opening line, fail with the key when it is missing, else store the text before it, drop everything through it and search for `<<` (as written) or for `=` or `<<` (corrected) |
| Properties.Run | src/properties.ts:17-47 | the loop run to its end: the properties once the search finds no separator, `Malformed(key)` when an iteration throws, `Diverges` when one leaves the data as long as it was |
| Properties.Parse | src/properties.ts:14-50 | `parseProperties(data)`: the loop started on the whole input with the full separator search and no properties |
| Properties.ParseCorrected | src/properties.ts:14-50 | the same parse with the two slips listed under Findings repaired |
| Properties.UnexpectedEof | src/properties.ts:39-41 | the error message carries the key of the record that was being read |
| Properties.ErrorMessage | src/properties.ts:38-42 | a parse throws exactly when it ends in `Malformed`, and its message then carries the key |
| Properties.SingleLineBreak | src/properties.ts:25-32 | a `name=` record sets `name` to the text up to the next line feed, and the loop goes on after the line feed with the full separator search |
| Properties.SingleLineNoBreak | src/properties.ts:25-32 | with no line feed after a `name=` record, the parser as written leaves the data unchanged and never returns; the corrected one sets `name` to the rest of the input and stops |
| Properties.HeredocStep | src/properties.ts:34-46 | a `name<<` record whose closing delimiter is found sets `name` to the text between the opening line and the delimiter, and the loop goes on after the delimiter with the search of the dialect (`<<` only, as written) |
| Properties.HeredocUnterminated | src/properties.ts:37-42 | a heredoc record whose closing delimiter never occurs ends the parse with the error naming its key |
| Properties.ParseProperties | src/properties.ts:14-50 | the `while` loop returns what the iteration-by-iteration specification `Parse` gives, with an invariant that the remaining run has the same outcome |
| Properties.AngleSearchLandsOnAngle | src/properties.ts:46 | the `<<`-only search lands on a `<`, so the `=` branch is entered only at a position the full search found; this is the extra loop invariant of `ParseProperties` that lets the `Diverges` exit call `StuckIteration` |
| Properties.StuckIteration | src/properties.ts:26-31 | from a state located by the full search, an iteration on a last `=` record with no line feed after it leads to a state that the loop body maps to itself; `ParseProperties` reaches its `Diverges` exit only in such a state |
| Properties.StringifyKeyValue | src/properties.ts:56-60 | writes `key=value\n` when the value has no line feed, else `key<<token\nvalue\ntoken\n` with the caller's token in place of `randomUUID()` |
| Properties.Stringify | src/properties.ts:62-70 | the records of the entries concatenated in entry order, the specification of `StringifyProperties` |
| Properties.StringifyAppend | src/properties.ts:62-70 | writing two entry lists one after the other gives the concatenation of their texts |
| Properties.StringifyProperties | src/properties.ts:62-70 | the `for` loop returns the records of all entries concatenated in entry order, `""` for none |
| PropertiesLaws.LocateSingleLine | src/properties.ts:16 | in `k=...`, with `k` free of `=` and `<<`, the separator search stops at the `=` after `k` |
| PropertiesLaws.RunSingleLine | src/properties.ts:25-32 | reading `k=v\n` then `rest` sets `k` to `v`, even when `v` holds `=` or `<<`, and goes on with `rest` |
| PropertiesLaws.RunHeredoc | src/properties.ts:34-46 | reading `k<<t\nv\nt\n` then `rest` sets `k` to `v` and goes on with `rest` under the search the dialect makes after a heredoc |
| PropertiesLaws.RoundTrip | src/properties.ts:14-70 | parse(stringify(S)) == S for admissible entries when no single-line entry follows a multi-line one |
| PropertiesLaws.RoundTripSingleLine | src/properties.ts:14-70 | parse(stringify(S)) == S when no value holds a line feed and no key holds `=` or `<<` |
| PropertiesLaws.RoundTripOneHeredoc | src/properties.ts:34-60 | a single multi-line entry reads back when the token has no line feed, the key has no `=` or `<<` and does not end in `<`, and the closing delimiter first occurs right after the value |
| PropertiesLaws.RoundTripCorrected | src/properties.ts:14-70 | with the full separator search after a heredoc, every admissible entry list reads back, in any order |
| PropertiesLaws.ClosesAfterFreshToken | src/properties.ts:58-59 | a token whose first character is no line feed and does not occur in the value closes the value where the writer put it |
| PropertiesBehaviour.LastWriteWins | src/properties.ts:26 | a later record for the same key overwrites the earlier one |
| PropertiesBehaviour.OneSingleLine | src/properties.ts:25-31 | `k=v\n` reads back as `k` set to `v` |
| PropertiesBehaviour.SingleLineExample | src/properties.ts:16-31 | `a=b\n` gives `{a: "b"}`; `a=b=c<<d\n` gives `{a: "b=c<<d"}` |
| PropertiesBehaviour.HeredocExample | src/properties.ts:34-45 | `a<<EOF\nline1\nline2\nEOF\n` gives `{a: "line1\nline2"}` |
| PropertiesBehaviour.EmbeddedTokenLine | src/properties.ts:56-60 | a value with a line `EOF` in it, written with the token `T`, reads back intact |
| PropertiesBehaviour.UnterminatedHeredoc | src/properties.ts:37-42 | `k<<t\n` followed by a body with no closing `\nt\n` fails with the error naming `k`, in both dialects; the message thrown is the unexpected-EOF message for `k` |
| PropertiesBehaviour.UnterminatedExample | src/properties.ts:37-42 | `a<<EOF\nline1\n` fails with the error naming `a` |
| PropertiesBehaviour.LastLineDiverges | src/properties.ts:17-31 | as written, parsing `k=v` with no final line feed never returns |
| PropertiesBehaviour.LastLineCorrected | src/properties.ts:26-30 | taking the rest of the input as the value makes `k=v` read as `k` set to `v` |
| PropertiesBehaviour.AsWrittenProgress | src/properties.ts:21-45 | as written, every iteration shortens the data except one on a single-line record with no line feed after it, which leaves the data as it was |
| PropertiesBehaviour.CorrectedProgress | src/properties.ts:21-45 | in the corrected dialect every iteration shortens the data |
| PropertiesBehaviour.CorrectedTerminates | src/properties.ts:17-47 | the corrected parser always returns properties or an error |
| PropertiesBehaviour.HeredocHidesPlainTail | src/properties.ts:46 | whatever follows a heredoc record without a `<<` in it is dropped |
| PropertiesBehaviour.HeredocAbsorbsNextLines | src/properties.ts:46 | text between two heredoc records becomes part of the second record's key |
| PropertiesBehaviour.SingleLineAfterHeredocLost | src/properties.ts:46 | writing `a` = "x\ny" and then `b` = "1" and parsing the result gives only `a` |
| PropertiesBehaviour.SingleLineAfterHeredocKept | src/properties.ts:46 | the corrected parser reads the same text as both entries |
| TrimIndent.TrimEnd | src/util/trimIndent.ts:6-10 | `trimEnd` returns a prefix of the line that is empty or ends in a non-whitespace character |
| TrimIndent.TrimEndRemovesWs | src/util/trimIndent.ts:6-10 | everything `trimEnd` removes is whitespace |
| TrimIndent.IsWs | src/util/trimIndent.ts:6-9 | the characters `\s` matches (with `\r`, `\n` and `\t`), which `trimEnd` removes from the end of a line |
| TrimIndent.LeadingBreaks | src/util/trimIndent.ts:3 | the leading run stops at the end of the text or at a character that is neither `\r` nor `\n` |
| TrimIndent.LeadingBreaksAll | src/util/trimIndent.ts:25 | every character of the leading run is `\r` or `\n` |
| TrimIndent.TrailingBreaks | src/util/trimIndent.ts:5 | the trailing run starts at the beginning of the text or after a character that is neither `\r` nor `\n` |
| TrimIndent.TrailingBreaksAll | src/util/trimIndent.ts:26 | every character of the trailing run is `\r` or `\n` |
| TrimIndent.EdgeTrim | src/util/trimIndent.ts:25-29 | the text between the leading and the trailing line-break runs, by `substring` (which swaps its ends when the runs overlap), then right-trimmed |
| TrimIndent.EdgeTrimSpec | src/util/trimIndent.ts:25-29 | the edge-trimmed text stands right after the leading line breaks; only whitespace follows it; it does not end in whitespace |
| TrimIndent.EdgeTrimOverlap | src/util/trimIndent.ts:28 | when the leading and trailing runs overlap, the leading run is the whole text and the result is empty |
| TrimIndent.IndentOf | src/util/trimIndent.ts:4 | an indent is found exactly when the line starts with a space or a tab; it is the longest non-empty prefix of the line made only of the line's first character, so spaces only or tabs only |
| TrimIndent.IndentOfRun | src/util/trimIndent.ts:4 | a line made of a run of spaces, or of tabs, followed by a different character has exactly that run as its indent |
| TrimIndent.Keep | src/util/trimIndent.ts:33-41 | one step of the indent loop: take the line's indent when none is kept yet, or when it is strictly shorter than the one kept; otherwise keep the old one |
| TrimIndent.SmallestIndentOf | src/util/trimIndent.ts:30-42 | the indent the loop keeps after the last line: `Keep` applied line by line from no indent |
| TrimIndent.SmallestOfTwo | src/util/trimIndent.ts:33-41 | of two indented lines the first keeps its indent unless the second's is strictly shorter |
| TrimIndent.FindSmallestIndent | src/util/trimIndent.ts:30-42 | the loop over the lines returns the indent `SmallestIndentOf` specifies |
| TrimIndent.SmallestNone | src/util/trimIndent.ts:30-43 | no indent is found exactly when no line is indented |
| TrimIndent.SmallestFirstShortest | src/util/trimIndent.ts:30-42 | the indent found is that of an indented line whose indent is no longer than any other, and shorter than that of every indented line before it |
| TrimIndent.IndentIsBlank | src/util/trimIndent.ts:4 | the indent found is a non-empty run of spaces only or of tabs only, never a mix |
| TrimIndent.DedentLine | src/util/trimIndent.ts:46-51 | one line of the result: the line without the smallest indent when it starts with it, else the line, right-trimmed either way |
| TrimIndent.Reindent | src/util/trimIndent.ts:43-53 | the edge-trimmed text unchanged when no line is indented, else its lines dedented and joined with line feeds |
| TrimIndent.TrimIndentOf | src/util/trimIndent.ts:17-54 | `trimIndent(content)` for a string argument: `Reindent` of the edge-trimmed text, the specification of the method `TrimIndent` |
| TrimIndent.TrimIndent | src/util/trimIndent.ts:17-54 | `trimIndent` returns `TrimIndentOf(content)`, which never ends in whitespace |
| TrimIndent.TrimIndentAllWhitespace | src/util/trimIndent.ts:25-43 | a text made only of whitespace gives `""` |
| TrimIndent.TrimIndentUnindented | src/util/trimIndent.ts:43 | with no indented line the result is the edge-trimmed text unchanged; inner lines keep their trailing whitespace |
| TrimIndent.TrimIndentNoTrailingWs | src/util/trimIndent.ts:27-53 | the result never ends in a whitespace character |
| TrimIndent.TrimIndentLines | src/util/trimIndent.ts:44-53 | with an indent found, the result has as many lines as the edge-trimmed text; a line that starts with the indent loses exactly it; the others are kept; each line is right-trimmed |
| TrimIndent.Example | src/util/trimIndent.ts:25-53 | `trimIndent("\n    a\n      b\n")` is `"a\n  b"` |
| TrimIndent.MixedIndentExample | src/util/trimIndent.ts:4-53 | `trimIndent("  \tx\n   y")` is `"\tx\n y"`: the indent removed is the two spaces, and the tab after them stays |

## Left out

- The file and environment wrappers (`src/properties.ts:52-54`, `72-153`) only do filesystem and `process.env` I/O.
- `randomUUID` (`src/properties.ts:58`):
  - The writer takes one caller-supplied token per entry instead.
  - Its collision avoidance is probabilistic. The model states instead what a token must satisfy (`ClosesAfter`; `ClosesAfterFreshToken` gives a sufficient condition).
- src/util/indexOf.ts is not part of this model. The separator search it performs with `/(=|<<)/g` is specified directly by `FirstSep`: the first index holding `=` or starting `<<`.
  - `EOK` (line 12 of `src/properties.ts`) is one module-level regular expression with the `g` flag, and so carries a `lastIndex` between uses. Each call of `indexOf(data, EOK)` is modelled as a fresh first-match search from index 0, which assumes the helper resets or ignores `lastIndex`. The `Diverges` outcome and the finding for lines 26-31 rest on this assumption: a search that resumed from `lastIndex` would behave differently on the repeated iteration.
- A property record is a `map<string, string>` when read, and a sequence of `(key, value)` pairs when written.
  - The pair sequence stands for the order `Object.entries` yields, including integer-like keys coming first.
  - The `__proto__` key and other prototype effects of a plain object are not modelled.
- Properties.ParseProperties: a loop that would run forever returns `Diverges` instead, at the first iteration that leaves `data` unchanged. `StuckIteration`, called at that exit of `ParseProperties`, proves that the loop body maps the state there to itself, so the source repeats the same iteration forever. The thrown `Error` becomes `Malformed(key)`.
- In `src/util/trimIndent.ts`:
  - the template-tag overload and the `rawString` helper it calls (line 21);
  - the `console.log` calls (lines 22-24);
  - the module-level `process.stdout.write` demonstrations (lines 58-86).
- `src/util/Callable.ts`: it builds a callable object at run time and has no string behaviour to state.
- Strings are sequences of Dafny characters (Unicode scalar values). JavaScript strings are UTF-16 code units; surrogate pairs are not modelled.
- TrimIndent.IsWs: the `\s` class, which also covers `\r`, `\n` and `\t`, is the ECMAScript WhiteSpace and LineTerminator set, compared by code unit.

## Findings

| source | as written | input that shows it | evidently intended | confidence | as-written member | corrected member |
|---|---|---|---|---|---|---|
| src/properties.ts:46 | after a heredoc record only `<<` is searched for, so the next single-line record is not read as a record | `stringifyProperties({a: "x\ny", b: "1"})` parsed back gives `{a: "x\ny"}` without `b` | search for `=` or `<<` again, as after a single-line record (lines 16, 31) | not executed | PropertiesBehaviour.SingleLineAfterHeredocLost | PropertiesBehaviour.SingleLineAfterHeredocKept |
| src/properties.ts:26-31 | a last single-line record with no final line feed gets `eolIndex` -1, so `data.substring(0)` leaves `data` unchanged and the loop never ends | `parseProperties("a=b")` | take the rest of the input as the value and stop | not executed | PropertiesBehaviour.LastLineDiverges | PropertiesBehaviour.LastLineCorrected |

=== FILE: js_string.dfy ===
/** The JavaScript string built-ins that the properties codec and the
    indentation trimmer call, with the index clamping, argument swapping and
    not-found value (-1) that the language gives them. */
module JsString {

  /** An index clamped into [0, n], as `String.prototype.substring` treats
      each of its arguments. */
  function Clamp(i: int, n: nat): (r: nat)
    ensures r <= n
    ensures 0 <= i <= n ==> r == i
  {
    if i < 0 then 0 else if i > n then n else i
  }

  /** `s.substring(start, end)`: both ends are clamped, and swapped when the
      first is the larger. `s.substring(start)` is `Substring(s, start, |s|)`. */
  function Substring(s: string, start: int, end: int): (r: string)
    ensures |r| <= |s|
    ensures 0 <= start <= end <= |s| ==> r == s[start..end]
    ensures 0 <= end <= start <= |s| ==> r == s[end..start]
  {
    var a, b := Clamp(start, |s|), Clamp(end, |s|);
    if a <= b then s[a..b] else s[b..a]
  }

  /** An argument out of range is clamped: a negative one counts as 0, one
      past the end as the length. */
  lemma SubstringClamps(s: string, start: int, end: int)
    ensures end < 0 <= start <= |s| ==> Substring(s, start, end) == s[..start]
    ensures start < 0 <= end <= |s| ==> Substring(s, start, end) == s[..end]
    ensures 0 <= start <= |s| < end ==> Substring(s, start, end) == s[start..]
    ensures start < 0 && end < 0 ==> Substring(s, start, end) == ""
  {
  }

  /** `pat` occurs in `s` starting at index `k`; `MatchAtSlice` restates this
      as an equality of slices. */
  predicate MatchAt(s: string, pat: string, k: int)
  {
    0 <= k && k + |pat| <= |s| && AgreeFrom(s, pat, k, 0)
  }

  /** The characters of `pat` from index `i` on stand in `s` from `k + i` on. */
  predicate AgreeFrom(s: string, pat: string, k: int, i: nat)
    decreases |pat| - i
  {
    i >= |pat| || (0 <= k + i < |s| && s[k + i] == pat[i] && AgreeFrom(s, pat, k, i + 1))
  }

  lemma {:induction false} AgreeFromAll(s: string, pat: string, k: int, i: nat)
    requires 0 <= k && k + |pat| <= |s| && i <= |pat|
    ensures AgreeFrom(s, pat, k, i) <==> s[k + i..k + |pat|] == pat[i..]
    decreases |pat| - i
  {
    if i < |pat| {
      AgreeFromAll(s, pat, k, i + 1);
      assert s[k + i..k + |pat|] == [s[k + i]] + s[k + i + 1..k + |pat|];
      assert pat[i..] == [pat[i]] + pat[i + 1..];
    }
  }

  lemma MatchAtSlice(s: string, pat: string, k: int)
    ensures MatchAt(s, pat, k) <==> 0 <= k && k + |pat| <= |s| && s[k..k + |pat|] == pat
  {
    if 0 <= k && k + |pat| <= |s| {
      AgreeFromAll(s, pat, k, 0);
    }
  }

  /** The first occurrence of `pat` in `s` at or after `k`, or -1. */
  function IndexOfFrom(s: string, pat: string, k: nat): (r: int)
    decreases |s| - k
    ensures r == -1 || (k <= r && MatchAt(s, pat, r))
  {
    if k + |pat| > |s| then -1
    else if MatchAt(s, pat, k) then k
    else IndexOfFrom(s, pat, k + 1)
  }

  /** No occurrence lies between `k` and what `IndexOfFrom` finds. */
  lemma {:induction false} IndexOfFromFirst(s: string, pat: string, k: nat, j: int)
    requires k <= j
    requires var r := IndexOfFrom(s, pat, k); r == -1 || j < r
    ensures !MatchAt(s, pat, j)
    decreases |s| - k
  {
    if k + |pat| <= |s| && !MatchAt(s, pat, k) && k < j {
      IndexOfFromFirst(s, pat, k + 1, j);
    }
  }

  /** An occurrence with none before it, from `k` on, is what `IndexOfFrom` finds. */
  lemma {:induction false} IndexOfFromIs(s: string, pat: string, k: nat, r: int)
    requires k <= r && MatchAt(s, pat, r)
    requires forall j :: k <= j < r ==> !MatchAt(s, pat, j)
    ensures IndexOfFrom(s, pat, k) == r
    decreases r - k
  {
    if k < r {
      assert !MatchAt(s, pat, k);
      IndexOfFromIs(s, pat, k + 1, r);
    }
  }

  /** Cutting a non-empty prefix off shortens the string. */
  lemma SuffixShorter(s: string, k: int)
    requires 0 < k <= |s|
    ensures |Substring(s, k, |s|)| == |s| - k
  {
  }

  /** `s.indexOf(pat, from)`: the search starts at `from` clamped into [0, |s|];
      `IndexOfFirst` says that no earlier occurrence is skipped. */
  function IndexOf(s: string, pat: string, from: int): (r: int)
    ensures r == -1 || (Clamp(from, |s|) <= r && MatchAt(s, pat, r))
  {
    IndexOfFrom(s, pat, Clamp(from, |s|))
  }

  /** `IndexOf` finds the first occurrence at or after the clamped `from`. */
  lemma IndexOfFirst(s: string, pat: string, from: int, j: int)
    requires Clamp(from, |s|) <= j
    requires var r := IndexOf(s, pat, from); r == -1 || j < r
    ensures !MatchAt(s, pat, j)
  {
    IndexOfFromFirst(s, pat, Clamp(from, |s|), j);
  }

  lemma {:induction false} IndexOfFromNone(s: string, pat: string, k: nat)
    requires forall j :: k <= j ==> !MatchAt(s, pat, j)
    ensures IndexOfFrom(s, pat, k) == -1
    decreases |s| - k
  {
    if k + |pat| <= |s| {
      IndexOfFromNone(s, pat, k + 1);
    }
  }

  /** A search from an in-range `from` past which `pat` never occurs gives -1. */
  lemma IndexOfNone(s: string, pat: string, from: int)
    requires 0 <= from <= |s|
    requires forall j :: from <= j ==> !MatchAt(s, pat, j)
    ensures IndexOf(s, pat, from) == -1
  {
    IndexOfFromNone(s, pat, from);
  }

  /** The first match at or after an in-range `from` is the index of that search. */
  lemma IndexOfIs(s: string, pat: string, from: int, r: int)
    requires 0 <= from <= r && MatchAt(s, pat, r)
    requires forall j :: from <= j < r ==> !MatchAt(s, pat, j)
    ensures IndexOf(s, pat, from) == r
  {
    IndexOfFromIs(s, pat, from, r);
  }

  /** An occurrence inside the middle part `y` of `x + y + z` is an occurrence in
      the whole string, shifted by `|x|`, and the other way round. */
  lemma MatchShift(x: string, y: string, z: string, pat: string, j: int)
    requires 0 <= j && j + |pat| <= |y|
    ensures MatchAt(x + y + z, pat, |x| + j) <==> MatchAt(y, pat, j)
  {
    MatchAtSlice(x + y + z, pat, |x| + j);
    MatchAtSlice(y, pat, j);
    assert (x + y + z)[|x| + j..|x| + j + |pat|] == y[j..j + |pat|];
  }

  /** A one-character pattern matches exactly where that character stands. */
  lemma MatchChar(s: string, c: char, k: int)
    ensures MatchAt(s, [c], k) <==> 0 <= k < |s| && s[k] == c
  {
    assert AgreeFrom(s, [c], k, 1);
  }

  /** `s.split("\n")`: the pieces between line feeds; always at least one. */
  function Split(s: string): (r: seq<string>)
    decreases |s|
    ensures |r| >= 1
  {
    if s == [] then [""]
    else
      var tail := Split(s[1..]);
      if s[0] == '\n' then [""] + tail
      else [[s[0]] + tail[0]] + tail[1..]
  }

  /** `lines.join("\n")`. */
  function Join(lines: seq<string>): string
  {
    if |lines| == 0 then ""
    else if |lines| == 1 then lines[0]
    else lines[0] + "\n" + Join(lines[1..])
  }

  /** No piece holds a line feed. */
  lemma {:induction false} SplitNoBreak(s: string)
    ensures forall i :: 0 <= i < |Split(s)| ==> '\n' !in Split(s)[i]
    decreases |s|
  {
    if s != [] {
      SplitNoBreak(s[1..]);
      var tail := Split(s[1..]);
      if s[0] != '\n' {
        assert '\n' !in [s[0]] + tail[0];
      }
    }
  }

  /** Joining the pieces gives the string back. */
  lemma {:induction false} JoinSplit(s: string)
    ensures Join(Split(s)) == s
    decreases |s|
  {
    if s != [] {
      JoinSplit(s[1..]);
      var tail := Split(s[1..]);
      var lines := Split(s);
      if s[0] == '\n' {
        assert lines[1..] == tail;
      } else if |tail| > 1 {
        assert lines[1..] == tail[1..];
        assert Join(tail) == tail[0] + "\n" + Join(tail[1..]);
      }
    }
  }

  /** A string without a line feed is one line. */
  lemma {:induction false} SplitOneLine(a: string)
    requires '\n' !in a
    ensures Split(a) == [a]
  {
    if a != [] {
      assert '\n' !in a[1..];
      SplitOneLine(a[1..]);
      assert [a[0]] + a[1..] == a;
    }
  }

  /** Splitting at the first line feed: the first line, then the split of the rest. */
  lemma {:induction false} SplitFirstLine(a: string, b: string)
    requires '\n' !in a
    ensures Split(a + "\n" + b) == [a] + Split(b)
  {
    var s := a + "\n" + b;
    if a == [] {
      assert s[1..] == b;
    } else {
      assert s[1..] == a[1..] + "\n" + b;
      assert '\n' !in a[1..];
      SplitFirstLine(a[1..], b);
      assert [a[0]] + a[1..] == a;
    }
  }

  /** Split undoes Join when no line holds a line feed. */
  lemma {:induction false} SplitJoin(lines: seq<string>)
    requires |lines| >= 1
    requires forall i :: 0 <= i < |lines| ==> '\n' !in lines[i]
    ensures Split(Join(lines)) == lines
  {
    if |lines| == 1 {
      SplitOneLine(lines[0]);
    } else {
      SplitJoin(lines[1..]);
      SplitFirstLine(lines[0], Join(lines[1..]));
      assert [lines[0]] + lines[1..] == lines;
    }
  }

  /** The joined text ends with the last line. */
  lemma {:induction false} JoinEndsWithLast(lines: seq<string>)
    requires |lines| >= 1
    ensures |lines[|lines| - 1]| <= |Join(lines)|
    ensures Join(lines)[|Join(lines)| - |lines[|lines| - 1]|..] == lines[|lines| - 1]
  {
    if |lines| > 1 {
      JoinEndsWithLast(lines[1..]);
    }
  }
}

=== FILE: properties.dfy ===
/** The properties codec: a blob of `key=value\n` and `key<<TOKEN\n...\nTOKEN\n`
    records read into a key-to-value mapping, and the writer that produces
    that format. */
module Properties {
  import opened JsString

  // ---------------------------------------------------------------------
  // Separator search
  // ---------------------------------------------------------------------

  /** A position where the separator pattern `=` or `<<` matches. */
  predicate SepAt(s: string, i: int)
  {
    0 <= i < |s| && (s[i] == '=' || (i + 1 < |s| && s[i] == '<' && s[i + 1] == '<'))
  }

  function FirstSepFrom(s: string, k: nat): (r: int)
    decreases |s| - k
    ensures r == -1 || (k <= r && SepAt(s, r))
  {
    if k >= |s| then -1
    else if SepAt(s, k) then k
    else FirstSepFrom(s, k + 1)
  }

  /** The index of the first `=` or `<<` in `s`, or -1: the search the parser
      makes before the first record and after every single-line record. */
  function FirstSep(s: string): (r: int)
    ensures r == -1 || SepAt(s, r)
  {
    FirstSepFrom(s, 0)
  }

  lemma {:induction false} FirstSepFromIs(s: string, k: nat, r: int)
    requires k <= r && SepAt(s, r)
    requires forall j :: k <= j < r ==> !SepAt(s, j)
    ensures FirstSepFrom(s, k) == r
    decreases r - k
  {
    if k < r {
      assert !SepAt(s, k);
      FirstSepFromIs(s, k + 1, r);
    }
  }

  /** A separator with none before it is what `FirstSep` finds. */
  lemma FirstSepIs(s: string, r: int)
    requires 0 <= r && SepAt(s, r)
    requires forall j :: 0 <= j < r ==> !SepAt(s, j)
    ensures FirstSep(s) == r
  {
    FirstSepFromIs(s, 0, r);
  }

  /** Which search locates the next record. */
  datatype Search = AnySeparator | DoubleAngleOnly

  function Locate(data: string, search: Search): int
  {
    match search
    case AnySeparator => FirstSep(data)
    case DoubleAngleOnly => IndexOf(data, "<<", 0)
  }

  /** The parser as written, and the same parser with its two evident slips
      repaired (see `Iterate`). */
  datatype Dialect = AsWritten | Corrected

  /** The search made after a heredoc record. */
  function AfterHeredoc(d: Dialect): Search
  {
    if d == AsWritten then DoubleAngleOnly else AnySeparator
  }

  // ---------------------------------------------------------------------
  // The parsing loop, one iteration at a time
  // ---------------------------------------------------------------------

  /** The loop's variables: the unread input, the separator index found in it,
      and the properties read so far. */
  datatype State = State(data: string, idx: int, props: map<string, string>)

  datatype Iteration = Continue(next: State) | Unterminated(key: string)

  /** What a call of the parser ends with. `Diverges` stands for a loop that
      never ends: an iteration that leaves `data` as it was. */
  datatype Outcome = Parsed(props: map<string, string>) | Malformed(key: string) | Diverges

  /** The message of the error thrown for an unterminated heredoc. */
  function UnexpectedEof(key: string): (msg: string)
    ensures |msg| > 36 + |key| && msg[36..36 + |key|] == key
  {
    "Error parsing outputs when reading '" + key + "': unexpected EOF"
  }

  /** The message of the error a parse ending in `o` throws: the
      unexpected-EOF message for `Malformed`, and none (`""`) otherwise. */
  function ErrorMessage(o: Outcome): (msg: string)
    ensures msg != "" <==> o.Malformed?
    ensures o.Malformed? ==> |msg| > 36 + |o.key| && msg[36..36 + |o.key|] == o.key
  {
    if o.Malformed? then UnexpectedEof(o.key) else ""
  }

  /** One iteration of the loop body. In the corrected dialect a single-line
      record without a final line feed takes the rest of the input as its
      value, and a heredoc record is followed by the full separator search. */
  function Iterate(s: State, d: Dialect): Iteration
  {
    var name := Substring(s.data, 0, s.idx);
    if 0 <= s.idx < |s.data| && s.data[s.idx] == '=' then
      SingleLineRecord(s, name, IndexOf(s.data, "\n", s.idx + 1), d)
    else
      HeredocRecord(s, name, IndexOf(s.data, "\n", s.idx + 2), d)
  }

  /** The rest of an iteration on `name=value`, with `eol` the index of the
      line feed after the `=`. */
  function SingleLineRecord(s: State, name: string, eol: int, d: Dialect): Iteration
  {
    if d == Corrected && eol == -1 then
      Continue(State("", -1, s.props[name := Substring(s.data, s.idx + 1, |s.data|)]))
    else
      var rest := Substring(s.data, eol + 1, |s.data|);
      Continue(State(rest, FirstSep(rest), s.props[name := Substring(s.data, s.idx + 1, eol)]))
  }

  /** The rest of an iteration on `name<<TOKEN`, with `eol` the index of the
      line feed after the `<<`. */
  function HeredocRecord(s: State, name: string, eol: int, d: Dialect): Iteration
  {
    var delimiter := "\n" + Substring(s.data, s.idx + 2, eol + 1);
    var closing := IndexOf(s.data, delimiter, eol + 1);
    if closing == -1 then Unterminated(name)
    else
      var rest := Substring(s.data, closing + |delimiter|, |s.data|);
      Continue(State(rest, Locate(rest, AfterHeredoc(d)), s.props[name := Substring(s.data, eol + 1, closing)]))
  }

  /** The loop run to its end from state `s`. */
  function Run(s: State, d: Dialect): Outcome
    decreases |s.data|
  {
    if s.idx == -1 then Parsed(s.props)
    else match Iterate(s, d)
      case Unterminated(key) => Malformed(key)
      case Continue(t) => if |t.data| < |s.data| then Run(t, d) else Diverges
  }

  /** A single-line record with no line feed after it: as written, the
      iteration leaves `data` as it was and the loop never ends; corrected,
      the value runs to the end of the input and the parse ends there. */
  lemma SingleLineNoBreak(s: State, d: Dialect)
    requires 0 <= s.idx < |s.data| && s.data[s.idx] == '='
    requires IndexOf(s.data, "\n", s.idx + 1) == -1
    ensures Iterate(s, d).Continue?
    ensures d == AsWritten ==> Iterate(s, d).next.data == s.data && Run(s, d) == Diverges
    ensures d == Corrected ==>
      Run(s, d) == Parsed(s.props[Substring(s.data, 0, s.idx) := s.data[s.idx + 1..]])
  {
    assert Iterate(s, d) == SingleLineRecord(s, Substring(s.data, 0, s.idx), -1, d);
    assert Substring(s.data, 0, |s.data|) == s.data;
  }

  /** A single-line record whose line feed is at `eol`: the record sets its
      key to the text before the line feed, and the loop goes on after it
      with the full separator search. */
  lemma SingleLineBreak(s: State, eol: int, d: Dialect)
    requires 0 <= s.idx < |s.data| && s.data[s.idx] == '='
    requires IndexOf(s.data, "\n", s.idx + 1) == eol && eol != -1
    ensures var rest := Substring(s.data, eol + 1, |s.data|);
      var props := s.props[Substring(s.data, 0, s.idx) := Substring(s.data, s.idx + 1, eol)];
      |rest| < |s.data| && Run(s, d) == Run(State(rest, FirstSep(rest), props), d)
  {
    assert Iterate(s, d) == SingleLineRecord(s, Substring(s.data, 0, s.idx), eol, d);
    assert MatchAt(s.data, "\n", eol);
  }

  /** As written, an iteration on a single-line record with no line feed after
      it ends in a state that the loop body maps to itself: the loop never
      ends. */
  lemma StuckIteration(s: State)
    requires 0 <= s.idx < |s.data| && s.data[s.idx] == '=' && s.idx == FirstSep(s.data)
    requires IndexOf(s.data, "\n", s.idx + 1) == -1
    ensures Iterate(s, AsWritten).Continue?
    ensures var t := Iterate(s, AsWritten).next;
      t.data == s.data && t.idx == s.idx && Iterate(t, AsWritten) == Continue(t)
  {
    var name := Substring(s.data, 0, s.idx);
    var value := Substring(s.data, s.idx + 1, -1);
    assert Substring(s.data, 0, |s.data|) == s.data;
    var t := State(s.data, s.idx, s.props[name := value]);
    assert Iterate(s, AsWritten) == SingleLineRecord(s, name, -1, AsWritten) == Continue(t);
    assert Iterate(t, AsWritten) == SingleLineRecord(t, name, -1, AsWritten);
    assert t.props[name := value] == t.props;
  }

  /** The `<<`-only search lands on a `<`, never on an `=`. */
  lemma AngleSearchLandsOnAngle(data: string)
    ensures var i := IndexOf(data, "<<", 0); i == -1 || (0 <= i < |data| && data[i] == '<')
  {
    var i := IndexOf(data, "<<", 0);
    if i != -1 {
      assert AgreeFrom(data, "<<", i, 0);
    }
  }

  /** `SingleLineBreak` with the pieces of the record named. */
  lemma SingleLineNext(s: State, eol: int, name: string, value: string, rest: string, d: Dialect)
    requires 0 <= s.idx < |s.data| && s.data[s.idx] == '='
    requires IndexOf(s.data, "\n", s.idx + 1) == eol && eol != -1
    requires Substring(s.data, 0, s.idx) == name && Substring(s.data, s.idx + 1, eol) == value
    requires Substring(s.data, eol + 1, |s.data|) == rest
    ensures |rest| < |s.data|
    ensures Run(s, d) == Run(State(rest, FirstSep(rest), s.props[name := value]), d)
  {
    SingleLineBreak(s, eol, d);
  }

  /** An iteration that shortens the input is followed by the rest of the run. */
  lemma RunContinues(s: State, t: State, d: Dialect)
    requires s.idx != -1 && Iterate(s, d) == Continue(t) && |t.data| < |s.data|
    ensures Run(s, d) == Run(t, d)
  {
  }

  /** The positions an iteration finds at a heredoc record of `data` whose
      separator is at `idx`, and the pieces it cuts out: the key `name`, the
      end of the opening line `eol`, the closing `delimiter` found at
      `closing`, the `value` before it and the `rest` after it. */
  ghost predicate HeredocAt(data: string, idx: int, eol: int, delimiter: string, closing: int,
                            name: string, value: string, rest: string)
  {
    idx != -1 && !(0 <= idx < |data| && data[idx] == '=') &&
    IndexOf(data, "\n", idx + 2) == eol &&
    delimiter == "\n" + Substring(data, idx + 2, eol + 1) &&
    IndexOf(data, delimiter, eol + 1) == closing && closing != -1 &&
    Substring(data, 0, idx) == name && Substring(data, eol + 1, closing) == value &&
    Substring(data, closing + |delimiter|, |data|) == rest
  }

  /** One iteration on a heredoc record whose closing delimiter is found. */
  lemma HeredocNext(s: State, eol: int, delimiter: string, closing: int,
                    name: string, value: string, rest: string, d: Dialect)
    requires HeredocAt(s.data, s.idx, eol, delimiter, closing, name, value, rest)
    ensures |rest| < |s.data|
    ensures Iterate(s, d) == Continue(State(rest, Locate(rest, AfterHeredoc(d)), s.props[name := value]))
  {
    assert MatchAt(s.data, delimiter, closing);
    SuffixShorter(s.data, closing + |delimiter|);
    assert Iterate(s, d) == HeredocRecord(s, name, eol, d);
  }

  /** What the rest of the run is after a heredoc record: the loop goes on
      after the closing delimiter. */
  lemma HeredocStep(s: State, eol: int, delimiter: string, closing: int,
                    name: string, value: string, rest: string, d: Dialect)
    requires HeredocAt(s.data, s.idx, eol, delimiter, closing, name, value, rest)
    ensures Run(s, d) == Run(State(rest, Locate(rest, AfterHeredoc(d)), s.props[name := value]), d)
  {
    HeredocNext(s, eol, delimiter, closing, name, value, rest, d);
    RunContinues(s, State(rest, Locate(rest, AfterHeredoc(d)), s.props[name := value]), d);
  }

  /** A heredoc record whose closing delimiter is missing ends the run with
      an error naming its key. */
  lemma HeredocUnterminated(s: State, eol: int, delimiter: string, d: Dialect)
    requires s.idx != -1 && !(0 <= s.idx < |s.data| && s.data[s.idx] == '=')
    requires IndexOf(s.data, "\n", s.idx + 2) == eol
    requires delimiter == "\n" + Substring(s.data, s.idx + 2, eol + 1)
    requires IndexOf(s.data, delimiter, eol + 1) == -1
    ensures Run(s, d) == Malformed(Substring(s.data, 0, s.idx))
  {
    assert Iterate(s, d) == HeredocRecord(s, Substring(s.data, 0, s.idx), eol, d);
  }

  /** `parseProperties(data)` as written. */
  function Parse(data: string): Outcome
  {
    Run(State(data, FirstSep(data), map[]), AsWritten)
  }

  /** The parser with the two repairs of `Iterate`. */
  function ParseCorrected(data: string): Outcome
  {
    Run(State(data, FirstSep(data), map[]), Corrected)
  }

  /** parseProperties: the loop over the input, consuming one record per
      iteration. Where the original would loop forever the model returns
      `Diverges`; where it throws it returns `Malformed`. */
  method ParseProperties(input: string) returns (r: Outcome)
    ensures r == Parse(input)
  {
    var data := input;
    var properties: map<string, string> := map[];
    var variableToDelimiterIndex := FirstSep(data);
    while variableToDelimiterIndex != -1
      invariant Run(State(data, variableToDelimiterIndex, properties), AsWritten) == Parse(input)
      invariant 0 <= variableToDelimiterIndex < |data| && data[variableToDelimiterIndex] == '=' ==>
                  variableToDelimiterIndex == FirstSep(data)
      decreases |data|
    {
      ghost var before := State(data, variableToDelimiterIndex, properties);
      var name := Substring(data, 0, variableToDelimiterIndex);
      var singleline := 0 <= variableToDelimiterIndex < |data| && data[variableToDelimiterIndex] == '=';
      var delimiterLength := if singleline then 1 else 2;
      var eolIndex := IndexOf(data, "\n", variableToDelimiterIndex + delimiterLength);
      if singleline {
        var value := Substring(data, variableToDelimiterIndex + delimiterLength, eolIndex);
        properties := properties[name := value];
        var rest := Substring(data, eolIndex + 1, |data|);
        if eolIndex == -1 {
          // data.substring(0) is data itself: the next iteration repeats this one forever
          SingleLineNoBreak(before, AsWritten);
          StuckIteration(before);
          return Diverges;
        }
        SingleLineNext(before, eolIndex, name, value, rest, AsWritten);
        data := rest;
        variableToDelimiterIndex := FirstSep(data);
        continue;
      }
      assert delimiterLength == 2;
      var delimiter := "\n" + Substring(data, variableToDelimiterIndex + delimiterLength, eolIndex + 1);
      var closingDelimiterIndex := IndexOf(data, delimiter, eolIndex + 1);
      if closingDelimiterIndex == -1 {
        HeredocUnterminated(before, eolIndex, delimiter, AsWritten);
        return Malformed(name);
      }
      var value := Substring(data, eolIndex + 1, closingDelimiterIndex);
      var rest := Substring(data, closingDelimiterIndex + |delimiter|, |data|);
      assert HeredocAt(data, variableToDelimiterIndex, eolIndex, delimiter, closingDelimiterIndex, name, value, rest);
      HeredocNext(before, eolIndex, delimiter, closingDelimiterIndex, name, value, rest, AsWritten);
      HeredocStep(before, eolIndex, delimiter, closingDelimiterIndex, name, value, rest, AsWritten);
      properties := properties[name := value];
      data := rest;
      AngleSearchLandsOnAngle(data);
      variableToDelimiterIndex := IndexOf(data, "<<", 0);
    }
    return Parsed(properties);
  }

  // ---------------------------------------------------------------------
  // The writer
  // ---------------------------------------------------------------------

  /** stringifyKeyValue with the random delimiter supplied as `token`: a value
      without a line feed is written on the key's line, any other between two
      lines holding the token. */
  function StringifyKeyValue(key: string, value: string, token: string): string
  {
    if '\n' !in value then key + "=" + value + "\n"
    else key + "<<" + token + "\n" + value + "\n" + token + "\n"
  }

  /** The records of `entries` in order; `tokens[i]` is the delimiter drawn for
      entry `i`. */
  function Stringify(entries: seq<(string, string)>, tokens: seq<string>): string
    requires |tokens| == |entries|
  {
    if entries == [] then ""
    else StringifyKeyValue(entries[0].0, entries[0].1, tokens[0]) + Stringify(entries[1..], tokens[1..])
  }

  /** The records of two entry lists written one after the other. */
  lemma {:induction false} StringifyAppend(e1: seq<(string, string)>, t1: seq<string>,
                                           e2: seq<(string, string)>, t2: seq<string>)
    requires |t1| == |e1| && |t2| == |e2|
    ensures Stringify(e1 + e2, t1 + t2) == Stringify(e1, t1) + Stringify(e2, t2)
  {
    if e1 == [] {
      assert e1 + e2 == e2 && t1 + t2 == t2;
    } else {
      var r := StringifyKeyValue(e1[0].0, e1[0].1, t1[0]);
      assert (e1 + e2)[1..] == e1[1..] + e2;
      assert (t1 + t2)[1..] == t1[1..] + t2;
      calc {
        Stringify(e1 + e2, t1 + t2);
        r + Stringify(e1[1..] + e2, t1[1..] + t2);
        { StringifyAppend(e1[1..], t1[1..], e2, t2); }
        r + (Stringify(e1[1..], t1[1..]) + Stringify(e2, t2));
        (r + Stringify(e1[1..], t1[1..])) + Stringify(e2, t2);
      }
    }
  }

  /** Appending one entry appends its record. */
  lemma StringifySnoc(entries: seq<(string, string)>, tokens: seq<string>, i: nat)
    requires |tokens| == |entries| && i < |entries|
    ensures Stringify(entries[..i + 1], tokens[..i + 1])
         == Stringify(entries[..i], tokens[..i]) + StringifyKeyValue(entries[i].0, entries[i].1, tokens[i])
  {
    assert entries[..i + 1] == entries[..i] + [entries[i]];
    assert tokens[..i + 1] == tokens[..i] + [tokens[i]];
    StringifyAppend(entries[..i], tokens[..i], [entries[i]], [tokens[i]]);
    assert Stringify([entries[i]], [tokens[i]]) == StringifyKeyValue(entries[i].0, entries[i].1, tokens[i]) + "";
  }

  /** stringifyProperties: the records of all entries, concatenated in order. */
  method StringifyProperties(entries: seq<(string, string)>, tokens: seq<string>) returns (out: string)
    requires |tokens| == |entries|
    ensures out == Stringify(entries, tokens)
  {
    out := "";
    for i := 0 to |entries|
      invariant out == Stringify(entries[..i], tokens[..i])
    {
      StringifySnoc(entries, tokens, i);
      out := out + StringifyKeyValue(entries[i].0, entries[i].1, tokens[i]);
    }
    assert entries[..|entries|] == entries && tokens[..|tokens|] == tokens;
  }

  /** The mapping an entry list denotes: later entries overwrite earlier ones. */
  function Apply(props: map<string, string>, entries: seq<(string, string)>): map<string, string>
    decreases |entries|
  {
    if entries == [] then props else Apply(props[entries[0].0 := entries[0].1], entries[1..])
  }

  function ToMap(entries: seq<(string, string)>): map<string, string>
  {
    Apply(map[], entries)
  }
}

=== FILE: properties_behaviour.dfy ===
/** The parser on particular inputs: worked examples, the error it reports
    for an unterminated heredoc, and the two places where it does not read
    back what the writer wrote (with the corrected parser beside each). */
module PropertiesBehaviour {
  import opened JsString
  import opened Properties
  import opened PropertiesLaws

  // ---------------------------------------------------------------------
  // Repeated keys
  // ---------------------------------------------------------------------

  /** A later record for the same key overwrites the earlier one. */
  lemma LastWriteWins(k: string, v1: string, v2: string)
    requires KeyOk(k) && '\n' !in v1 && '\n' !in v2
    ensures Parse(k + "=" + v1 + "\n" + k + "=" + v2 + "\n") == Parsed(map[k := v2])
  {
    var second := k + "=" + v2 + "\n";
    assert k + "=" + v1 + "\n" + k + "=" + v2 + "\n" == k + "=" + v1 + "\n" + second;
    assert second == k + "=" + v2 + "\n" + "";
    RunSingleLine(k, v1, second, map[], AsWritten);
    RunSingleLine(k, v2, "", map[k := v1], AsWritten);
    assert FirstSep("") == -1;
    assert map[k := v1][k := v2] == map[k := v2];
  }

  /** A single-line record reads back its value, which runs from the first
      `=` to the line feed and may itself hold `=` and `<<`. */
  lemma OneSingleLine(k: string, v: string)
    requires KeyOk(k) && '\n' !in v
    ensures Parse(k + "=" + v + "\n") == Parsed(map[k := v])
  {
    assert k + "=" + v + "\n" == k + "=" + v + "\n" + "";
    RunSingleLine(k, v, "", map[], AsWritten);
    assert FirstSep("") == -1;
  }

  lemma SingleLineExample()
    ensures Parse("a=b\n") == Parsed(map["a" := "b"])
    ensures Parse("a=b=c<<d\n") == Parsed(map["a" := "b=c<<d"])
  {
    assert KeyOk("a") by {
      assert !SepAt("a", 0);
    }
    assert "a=b\n" == "a" + "=" + "b" + "\n";
    OneSingleLine("a", "b");
    assert "a=b=c<<d\n" == "a" + "=" + "b=c<<d" + "\n";
    OneSingleLine("a", "b=c<<d");
  }

  /** The heredoc body is everything between the opening line and the first
      line holding only the token. */
  lemma HeredocExample()
    ensures Parse("a<<EOF\nline1\nline2\nEOF\n") == Parsed(map["a" := "line1\nline2"])
  {
    var v := "line1\nline2";
    assert KeyOk("a") by {
      assert !SepAt("a", 0);
    }
    assert v[5] == '\n';
    assert 'E' !in v by {
      forall i | 0 <= i < |v| ensures v[i] != 'E' { }
    }
    ClosesAfterFreshToken(v, "EOF");
    RoundTripOneHeredoc("a", v, "EOF");
    HeredocExampleText();
  }

  /** A value holding a line equal to some other token, written with a token
      that does not occur in it, reads back intact. */
  lemma EmbeddedTokenLine()
    ensures Parse(StringifyKeyValue("a", "x\nEOF\ny", "T")) == Parsed(map["a" := "x\nEOF\ny"])
  {
    var v := "x\nEOF\ny";
    assert KeyOk("a") by {
      assert !SepAt("a", 0);
    }
    assert v[1] == '\n';
    assert 'T' !in v by {
      forall i | 0 <= i < |v| ensures v[i] != 'T' { }
    }
    ClosesAfterFreshToken(v, "T");
    RoundTripOneHeredoc("a", v, "T");
  }

  lemma HeredocExampleText()
    ensures StringifyKeyValue("a", "line1\nline2", "EOF") == "a<<EOF\nline1\nline2\nEOF\n"
  {
    var v := "line1\nline2";
    assert v[5] == '\n';
    assert "a" + "<<" + "EOF" + "\n" == "a<<EOF\n";
    assert v + "\n" + "EOF" + "\n" == "line1\nline2\nEOF\n";
    assert "a<<EOF\n" + "line1\nline2\nEOF\n" == "a<<EOF\nline1\nline2\nEOF\n";
  }

  // ---------------------------------------------------------------------
  // Unterminated heredoc
  // ---------------------------------------------------------------------

  /** What the iteration finds in `k<<t\n` followed by a body in which the
      closing delimiter never occurs. */
  lemma UnterminatedPositions(k: string, t: string, body: string)
    requires KeyOk(k) && NoAngleTail(k) && '\n' !in t
    requires forall j :: 0 <= j ==> !MatchAt(body, "\n" + t + "\n", j)
    ensures var data := k + "<<" + t + "\n" + body;
      var eol := |k| + |t| + 2;
      FirstSep(data) == |k| && data[|k|] == '<' &&
      IndexOf(data, "\n", |k| + 2) == eol &&
      "\n" + t + "\n" == "\n" + Substring(data, |k| + 2, eol + 1) &&
      IndexOf(data, "\n" + t + "\n", eol + 1) == -1 &&
      Substring(data, 0, |k|) == k
  {
    var x := k + "<<" + t;
    var data := x + "\n" + body;
    var eol := |k| + |t| + 2;
    var delimiter := "\n" + t + "\n";
    assert data == k + ("<<" + t + "\n" + body);
    assert data == (x + "\n") + body;
    assert data[|k| + 2..eol + 1] == t + "\n";
    KeyHasNoAngle(k);
    LocateHeredoc(k, "<<" + t + "\n" + body, AnySeparator);
    forall j | |k| + 2 <= j < |x| ensures x[j] != '\n' {
      assert x[j] == t[j - |k| - 2];
    }
    LineEnd(x, body, |k| + 2);
    NeverAfter(x + "\n", body, delimiter);
  }

  /** A pattern that never occurs in `y` is not found after `x` in `x + y`. */
  lemma NeverAfter(x: string, y: string, pat: string)
    requires forall j :: 0 <= j ==> !MatchAt(y, pat, j)
    ensures IndexOf(x + y, pat, |x|) == -1
  {
    forall j | |x| <= j ensures !MatchAt(x + y, pat, j) {
      if j + |pat| <= |x + y| {
        MatchShift(x, y, "", pat, j - |x|);
        assert x + y + "" == x + y;
      }
    }
    IndexOfNone(x + y, pat, |x|);
  }

  /** A heredoc record whose closing delimiter never comes makes the parser
      throw the unexpected-EOF error for its key, in both dialects. */
  lemma UnterminatedHeredoc(k: string, t: string, body: string)
    requires KeyOk(k) && NoAngleTail(k) && '\n' !in t
    requires forall j :: 0 <= j ==> !MatchAt(body, "\n" + t + "\n", j)
    ensures Parse(k + "<<" + t + "\n" + body) == Malformed(k)
    ensures ParseCorrected(k + "<<" + t + "\n" + body) == Malformed(k)
    ensures ErrorMessage(Parse(k + "<<" + t + "\n" + body)) == UnexpectedEof(k)
  {
    var data := k + "<<" + t + "\n" + body;
    var eol := |k| + |t| + 2;
    UnterminatedPositions(k, t, body);
    HeredocUnterminated(State(data, |k|, map[]), eol, "\n" + t + "\n", AsWritten);
    HeredocUnterminated(State(data, |k|, map[]), eol, "\n" + t + "\n", Corrected);
  }

  /** The input ends before the closing token. */
  lemma UnterminatedExample()
    ensures Parse("a<<EOF\nline1\n") == Malformed("a")
  {
    forall j | 0 <= j ensures !MatchAt("line1\n", "\nEOF\n", j) {
      if j <= 1 {
        assert "line1\n"[j] != '\n';
      }
    }
    assert KeyOk("a") by {
      assert !SepAt("a", 0);
    }
    assert "a<<EOF\nline1\n" == "a" + "<<" + "EOF" + "\n" + "line1\n";
    UnterminatedHeredoc("a", "EOF", "line1\n");
  }

  // ---------------------------------------------------------------------
  // A single-line record without a final line feed
  // ---------------------------------------------------------------------

  /** What the iteration finds in `k=v` when `v` holds no line feed. */
  lemma LastLinePositions(k: string, v: string)
    requires KeyOk(k) && '\n' !in v
    ensures var data := k + "=" + v;
      FirstSep(data) == |k| && data[|k|] == '=' &&
      IndexOf(data, "\n", |k| + 1) == -1 &&
      Substring(data, 0, |k|) == k && Substring(data, |k| + 1, |data|) == v
  {
    var data := k + "=" + v;
    LocateSingleLine(k, "=" + v);
    assert data == k + ("=" + v);
    forall j | |k| + 1 <= j ensures !MatchAt(data, "\n", j) {
      MatchChar(data, '\n', j);
      if j < |data| {
        assert data[j] == v[j - |k| - 1];
      }
    }
    IndexOfNone(data, "\n", |k| + 1);
  }

  /** As written, the parser never returns on `k=v` without a final line feed. */
  lemma LastLineDiverges(k: string, v: string)
    requires KeyOk(k) && '\n' !in v
    ensures Parse(k + "=" + v) == Diverges
  {
    LastLinePositions(k, v);
    SingleLineNoBreak(State(k + "=" + v, |k|, map[]), AsWritten);
  }

  /** The corrected parser reads `k=v` without a final line feed as `k` set
      to `v`. */
  lemma LastLineCorrected(k: string, v: string)
    requires KeyOk(k) && '\n' !in v
    ensures ParseCorrected(k + "=" + v) == Parsed(map[k := v])
  {
    var data := k + "=" + v;
    var s := State(data, |k|, map[]);
    LastLinePositions(k, v);
    assert Iterate(s, Corrected) == SingleLineRecord(s, k, -1, Corrected);
    assert Iterate(s, Corrected) == Continue(State("", -1, map[k := v]));
    RunContinues(s, State("", -1, map[k := v]), Corrected);
  }

  /** An iteration on a heredoc record that finds its closing delimiter
      shortens the input. */
  lemma HeredocShortens(s: State, t: State, d: Dialect)
    requires s.idx != -1 && !(0 <= s.idx < |s.data| && s.data[s.idx] == '=')
    requires Iterate(s, d) == Continue(t)
    ensures |t.data| < |s.data|
  {
    var eol := IndexOf(s.data, "\n", s.idx + 2);
    var delimiter := "\n" + Substring(s.data, s.idx + 2, eol + 1);
    assert Iterate(s, d) == HeredocRecord(s, Substring(s.data, 0, s.idx), eol, d);
    assert MatchAt(s.data, delimiter, IndexOf(s.data, delimiter, eol + 1));
  }

  /** As written, an iteration shortens the input unless it is one on a
      single-line record with no line feed after it, which leaves the input
      as it was. */
  lemma AsWrittenProgress(s: State, t: State)
    requires s.idx != -1 && Iterate(s, AsWritten) == Continue(t)
    ensures |t.data| < |s.data| ||
      (0 <= s.idx < |s.data| && s.data[s.idx] == '=' &&
       IndexOf(s.data, "\n", s.idx + 1) == -1 && t.data == s.data)
  {
    var name := Substring(s.data, 0, s.idx);
    if 0 <= s.idx < |s.data| && s.data[s.idx] == '=' {
      var eol := IndexOf(s.data, "\n", s.idx + 1);
      assert Iterate(s, AsWritten) == SingleLineRecord(s, name, eol, AsWritten);
      if eol != -1 {
        assert MatchAt(s.data, "\n", eol);
      }
    } else {
      HeredocShortens(s, t, AsWritten);
    }
  }

  /** Every iteration of the corrected parser shortens the input. */
  lemma CorrectedProgress(s: State, t: State)
    requires s.idx != -1 && Iterate(s, Corrected) == Continue(t)
    ensures |t.data| < |s.data|
  {
    var name := Substring(s.data, 0, s.idx);
    if 0 <= s.idx < |s.data| && s.data[s.idx] == '=' {
      var eol := IndexOf(s.data, "\n", s.idx + 1);
      assert Iterate(s, Corrected) == SingleLineRecord(s, name, eol, Corrected);
      if eol != -1 {
        assert MatchAt(s.data, "\n", eol);
      }
    } else {
      HeredocShortens(s, t, Corrected);
    }
  }

  lemma {:induction false} CorrectedRunEnds(s: State)
    ensures Run(s, Corrected) != Diverges
    decreases |s.data|
  {
    if s.idx != -1 {
      match Iterate(s, Corrected)
      case Unterminated(_) =>
      case Continue(t) =>
        CorrectedProgress(s, t);
        CorrectedRunEnds(t);
    }
  }

  /** The corrected parser always returns: properties or an error. */
  lemma CorrectedTerminates(data: string)
    ensures ParseCorrected(data) != Diverges
  {
    CorrectedRunEnds(State(data, FirstSep(data), map[]));
  }

  // ---------------------------------------------------------------------
  // What follows a heredoc record
  // ---------------------------------------------------------------------

  /** As written, after a heredoc record only `<<` is looked for, so text
      without `<<` after it, single-line records included, is never read. */
  lemma HeredocHidesPlainTail(k: string, v: string, t: string, tail: string)
    requires KeyOk(k) && NoAngleTail(k) && '\n' in v
    requires '\n' !in t && ClosesAfter(v, t)
    requires NoAngle(tail)
    ensures Parse(StringifyKeyValue(k, v, t) + tail) == Parsed(map[k := v])
  {
    FirstHeredoc(k, v, t, tail);
    forall j | 0 <= j ensures !MatchAt(tail, "<<", j) {
      MatchAngle(tail, j);
    }
    IndexOfNone(tail, "<<", 0);
  }

  /** The writer's record for a multi-line value, followed by `rest`. */
  lemma HeredocText(k: string, v: string, t: string, rest: string)
    requires '\n' in v
    ensures StringifyKeyValue(k, v, t) + rest == k + "<<" + t + "\n" + v + "\n" + t + "\n" + rest
  {
  }

  /** As written, a first heredoc record hands the rest to the `<<`-only
      search. */
  lemma FirstHeredoc(k: string, v: string, t: string, rest: string)
    requires KeyOk(k) && NoAngleTail(k) && '\n' in v
    requires '\n' !in t && ClosesAfter(v, t)
    ensures Parse(StringifyKeyValue(k, v, t) + rest)
         == Run(State(rest, IndexOf(rest, "<<", 0), map[k := v]), AsWritten)
  {
    HeredocText(k, v, t, rest);
    KeyHasNoAngle(k);
    RunHeredoc(k, v, t, rest, map[], AnySeparator, AsWritten);
  }

  /** As written, a heredoc record located by the `<<`-only search and
      followed by nothing ends the run. */
  lemma LastHeredoc(k: string, v: string, t: string, data: string, props: map<string, string>)
    requires NoAngle(k) && NoAngleTail(k) && '\n' !in t && ClosesAfter(v, t)
    requires data == k + "<<" + t + "\n" + v + "\n" + t + "\n"
    ensures Run(State(data, IndexOf(data, "<<", 0), props), AsWritten) == Parsed(props[k := v])
  {
    assert data == k + "<<" + t + "\n" + v + "\n" + t + "\n" + "";
    RunHeredoc(k, v, t, "", props, DoubleAngleOnly, AsWritten);
    assert IndexOf("", "<<", 0) == -1;
  }

  lemma AbsorbText(first: string, lines: string, k2: string, v2: string, t2: string)
    requires '\n' in v2
    ensures first + lines + StringifyKeyValue(k2, v2, t2) == first + (lines + StringifyKeyValue(k2, v2, t2))
    ensures lines + StringifyKeyValue(k2, v2, t2) == (lines + k2) + "<<" + t2 + "\n" + v2 + "\n" + t2 + "\n"
  {
  }

  /** As written, the text between a heredoc record and the next `<<` becomes
      the front of the next heredoc record's key. */
  lemma HeredocAbsorbsNextLines(k: string, v: string, t: string, lines: string,
                                k2: string, v2: string, t2: string)
    requires KeyOk(k) && NoAngleTail(k) && '\n' in v
    requires '\n' !in t && ClosesAfter(v, t)
    requires NoAngle(lines + k2) && NoAngleTail(lines + k2) && '\n' in v2
    requires '\n' !in t2 && ClosesAfter(v2, t2)
    ensures Parse(StringifyKeyValue(k, v, t) + lines + StringifyKeyValue(k2, v2, t2))
         == Parsed(map[k := v][lines + k2 := v2])
  {
    var rest := lines + StringifyKeyValue(k2, v2, t2);
    AbsorbText(StringifyKeyValue(k, v, t), lines, k2, v2, t2);
    FirstHeredoc(k, v, t, rest);
    LastHeredoc(lines + k2, v2, t2, rest, map[k := v]);
  }

  /** The entry list that shows a single-line entry after a multi-line one
      being lost. */
  function LostEntries(): seq<(string, string)>
  {
    [("a", "x\ny"), ("b", "1")]
  }

  lemma LostEntriesText()
    ensures EntriesOk(LostEntries(), ["T", "T"])
    ensures Stringify(LostEntries(), ["T", "T"]) == StringifyKeyValue("a", "x\ny", "T") + "b=1\n"
    ensures ToMap(LostEntries()) == map["a" := "x\ny", "b" := "1"]
  {
    var e, ts := LostEntries(), ["T", "T"];
    assert e[1..] == [("b", "1")] && ts[1..] == ["T"];
    assert e[1..][1..] == [] && ts[1..][1..] == [];
    assert Stringify(e[1..], ts[1..]) == "b=1\n" + "";
    assert KeyOk("a") by {
      assert !SepAt("a", 0);
    }
    assert KeyOk("b") by {
      assert !SepAt("b", 0);
    }
    ClosesAfterFreshToken("x\ny", "T");
    assert EntryOk(e[0].0, e[0].1, ts[0]);
    assert EntryOk(e[1].0, e[1].1, ts[1]);
    assert Apply(map["a" := "x\ny"], e[1..]) == Apply(map["a" := "x\ny", "b" := "1"], []);
  }

  /** As written, writing `a` = "x\ny" and then `b` = "1" and reading the
      result back loses `b`. */
  lemma SingleLineAfterHeredocLost()
    ensures EntriesOk(LostEntries(), ["T", "T"])
    ensures Parse(Stringify(LostEntries(), ["T", "T"])) == Parsed(map["a" := "x\ny"])
    ensures Parse(Stringify(LostEntries(), ["T", "T"])) != Parsed(ToMap(LostEntries()))
  {
    LostEntriesText();
    assert KeyOk("a") by {
      assert !SepAt("a", 0);
    }
    ClosesAfterFreshToken("x\ny", "T");
    assert NoAngle("b=1\n") by {
      assert !AngleAt("b=1\n", 0) && !AngleAt("b=1\n", 1) && !AngleAt("b=1\n", 2);
    }
    HeredocHidesPlainTail("a", "x\ny", "T", "b=1\n");
    assert "b" in ToMap(LostEntries());
  }

  /** The corrected parser reads the same text back as both entries. */
  lemma SingleLineAfterHeredocKept()
    ensures ParseCorrected(Stringify(LostEntries(), ["T", "T"])) == Parsed(map["a" := "x\ny", "b" := "1"])
  {
    LostEntriesText();
    RoundTripCorrected(LostEntries(), ["T", "T"]);
  }
}

=== FILE: properties_laws.dfy ===
/** What the properties parser does with the records the writer produces, and
    with the inputs that trip it up. */
module PropertiesLaws {
  import opened JsString
  import opened Properties

  // ---------------------------------------------------------------------
  // Keys, tokens and entry lists the writer can hand to the parser
  // ---------------------------------------------------------------------

  /** `<<` starts at index `i` of `s`. */
  predicate AngleAt(s: string, i: int)
  {
    0 <= i && i + 1 < |s| && s[i] == '<' && s[i + 1] == '<'
  }

  /** A key the separator search cannot stop inside: no `=` and no `<<`. */
  predicate KeyOk(k: string)
  {
    forall i :: 0 <= i < |k| ==> !SepAt(k, i)
  }

  /** A key the `<<`-only search cannot stop inside. */
  predicate NoAngle(k: string)
  {
    forall i :: 0 <= i < |k| ==> !AngleAt(k, i)
  }

  /** A key after which `<<` is found exactly at the key's end. */
  predicate NoAngleTail(k: string)
  {
    k == [] || k[|k| - 1] != '<'
  }

  /** The first `"\n" + t + "\n"` in the text that follows the opening line of
      a heredoc record for `v` starts right after `v`. */
  predicate ClosesAfter(v: string, t: string)
  {
    forall i :: 0 <= i < |v| ==> !MatchAt(v + "\n" + t + "\n", "\n" + t + "\n", i)
  }

  /** What the writer needs for entry `(k, v)` with token `t` to be read back. */
  predicate EntryOk(k: string, v: string, t: string)
  {
    KeyOk(k) && ('\n' in v ==> '\n' !in t && NoAngleTail(k) && ClosesAfter(v, t))
  }

  predicate EntriesOk(entries: seq<(string, string)>, tokens: seq<string>)
    requires |tokens| == |entries|
  {
    forall i :: 0 <= i < |entries| ==> EntryOk(entries[i].0, entries[i].1, tokens[i])
  }

  /** No single-line entry follows a multi-line one. */
  predicate SingleLinesFirst(entries: seq<(string, string)>)
  {
    forall i, j :: 0 <= i < j < |entries| && '\n' in entries[i].1 ==> '\n' in entries[j].1
  }

  // ---------------------------------------------------------------------
  // Locating a record
  // ---------------------------------------------------------------------

  lemma MatchAngle(s: string, i: int)
    ensures MatchAt(s, "<<", i) <==> AngleAt(s, i)
  {
    if 0 <= i && i + 2 <= |s| {
      assert s[i..i + 2][0] == s[i] && s[i..i + 2][1] == s[i + 1];
      if s[i] == '<' && s[i + 1] == '<' {
        assert s[i..i + 2] == "<<";
      }
    }
  }

  /** Nothing inside an admissible key is found by either search. */
  lemma NothingInsideKey(k: string, tail: string)
    requires NoAngle(k)
    requires tail != [] && (tail[0] == '<' ==> NoAngleTail(k))
    ensures forall i :: 0 <= i < |k| ==> !AngleAt(k + tail, i)
    ensures KeyOk(k) && tail[0] != '<' ==> forall i :: 0 <= i < |k| ==> !SepAt(k + tail, i)
    ensures KeyOk(k) && tail[0] == '<' ==> forall i :: 0 <= i < |k| ==> !SepAt(k + tail, i)
  {
    var s := k + tail;
    forall i | 0 <= i < |k|
      ensures !AngleAt(s, i)
      ensures KeyOk(k) ==> !SepAt(s, i)
    {
      assert s[i] == k[i];
      assert !AngleAt(k, i);
      if i + 1 < |k| {
        assert s[i + 1] == k[i + 1];
      } else {
        assert s[i + 1] == tail[0];
      }
      if KeyOk(k) {
        assert !SepAt(k, i);
      }
    }
  }

  /** The search finds the `=` right after an admissible key. */
  lemma LocateSingleLine(k: string, tail: string)
    requires KeyOk(k) && tail != [] && tail[0] == '='
    ensures FirstSep(k + tail) == |k|
  {
    KeyHasNoAngle(k);
    NothingInsideKey(k, tail);
    var s := k + tail;
    assert s[|k|] == '=';
    FirstSepIs(s, |k|);
  }

  lemma KeyHasNoAngle(k: string)
    requires KeyOk(k)
    ensures NoAngle(k)
  {
    forall i | 0 <= i < |k| ensures !AngleAt(k, i) {
      assert !SepAt(k, i);
    }
  }

  /** Either search finds the `<<` right after an admissible key. */
  lemma LocateHeredoc(k: string, tail: string, search: Search)
    requires search == AnySeparator ==> KeyOk(k)
    requires NoAngle(k) && NoAngleTail(k)
    requires |tail| >= 2 && tail[0] == '<' && tail[1] == '<'
    ensures Locate(k + tail, search) == |k|
  {
    NothingInsideKey(k, tail);
    var s := k + tail;
    assert s[|k|] == '<' && s[|k| + 1] == '<';
    assert AngleAt(s, |k|) && SepAt(s, |k|);
    if search == AnySeparator {
      FirstSepIs(s, |k|);
    } else {
      MatchAngle(s, |k|);
      forall j | 0 <= j < |k| ensures !MatchAt(s, "<<", j) {
        MatchAngle(s, j);
      }
      IndexOfIs(s, "<<", 0, |k|);
    }
  }

  /** The first line feed at or after `from` in `x + "\n" + y`, when `x` has
      none from `from` on. */
  lemma LineEnd(x: string, y: string, from: nat)
    requires from <= |x|
    requires forall j :: from <= j < |x| ==> x[j] != '\n'
    ensures IndexOf(x + "\n" + y, "\n", from) == |x|
  {
    var s := x + "\n" + y;
    MatchChar(s, '\n', |x|);
    forall j | from <= j < |x| ensures !MatchAt(s, "\n", j) {
      MatchChar(s, '\n', j);
    }
    IndexOfIs(s, "\n", from, |x|);
  }

  // ---------------------------------------------------------------------
  // One record
  // ---------------------------------------------------------------------

  /** Where the parts of a single-line record stand in the input. */
  lemma SingleLineLayout(k: string, v: string, rest: string)
    ensures var data := k + "=" + v + "\n" + rest;
      data == k + ("=" + v + "\n" + rest) &&
      data == (k + "=" + v) + "\n" + rest &&
      data[..|k|] == k && data[|k|] == '=' &&
      data[|k| + 1..|k| + 1 + |v|] == v &&
      data[|k| + |v| + 2..] == rest
  {
    var data := k + "=" + v + "\n" + rest;
    assert data == k + "=" + v + ("\n" + rest);
  }

  /** A `k=v\n` record sets `k` to `v` and hands the rest to the full search. */
  lemma RunSingleLine(k: string, v: string, rest: string, props: map<string, string>, d: Dialect)
    requires KeyOk(k) && '\n' !in v
    ensures var data := k + "=" + v + "\n" + rest;
      Run(State(data, FirstSep(data), props), d) == Run(State(rest, FirstSep(rest), props[k := v]), d)
  {
    var data := k + "=" + v + "\n" + rest;
    assert data == k + ("=" + v + "\n" + rest);
    LocateSingleLine(k, "=" + v + "\n" + rest);
    SingleLineRecordRun(k, v, rest, props, d);
  }

  /** The run from the `=` of a single-line record `k=v\n`. */
  lemma SingleLineRecordRun(k: string, v: string, rest: string, props: map<string, string>, d: Dialect)
    requires '\n' !in v
    ensures var data := k + "=" + v + "\n" + rest;
      Run(State(data, |k|, props), d) == Run(State(rest, FirstSep(rest), props[k := v]), d)
  {
    var data := k + "=" + v + "\n" + rest;
    SingleLineLayout(k, v, rest);
    LineEnd(k + "=" + v, rest, |k| + 1);
    var eol := |k| + 1 + |v|;
    assert Substring(data, 0, |k|) == k;
    assert Substring(data, |k| + 1, eol) == v;
    assert Substring(data, eol + 1, |data|) == rest;
    SingleLineNext(State(data, |k|, props), eol, k, v, rest, d);
  }

  /** Where the parts of a heredoc record stand in the input. */
  lemma HeredocLayout(k: string, v: string, t: string, rest: string)
    ensures var data := k + "<<" + t + "\n" + v + "\n" + t + "\n" + rest;
      var open := |k| + |t| + 3;
      data == k + ("<<" + t + "\n" + v + "\n" + t + "\n" + rest) &&
      data == (k + "<<" + t) + "\n" + (v + "\n" + t + "\n" + rest) &&
      data == (k + "<<" + t + "\n") + (v + "\n" + t + "\n") + rest &&
      data[..|k|] == k && data[|k|] == '<' &&
      data[|k| + 2..open] == t + "\n" &&
      data[open..open + |v|] == v &&
      data[open + |v| + |t| + 2..] == rest
  {
    var data := k + "<<" + t + "\n" + v + "\n" + t + "\n" + rest;
    assert data == (k + "<<") + (t + "\n") + (v + "\n" + t + "\n" + rest);
    assert data == (k + "<<" + t + "\n") + v + ("\n" + t + "\n" + rest);
  }

  /** Either search stops at the `<<` of a heredoc record `k<<t\nv\nt\n`. */
  lemma LocateHeredocRecord(k: string, v: string, t: string, rest: string, search: Search)
    requires search == AnySeparator ==> KeyOk(k)
    requires NoAngle(k) && NoAngleTail(k)
    ensures var data := k + "<<" + t + "\n" + v + "\n" + t + "\n" + rest;
      Locate(data, search) == |k|
  {
    var tail := "<<" + t + "\n" + v + "\n" + t + "\n" + rest;
    assert k + "<<" + t + "\n" + v + "\n" + t + "\n" + rest == k + tail;
    LocateHeredoc(k, tail, search);
  }

  /** What an iteration finds in a heredoc record `k<<t\nv\nt\n` whose `<<`
      is located: the end of its opening line and its closing delimiter. */
  lemma HeredocPositions(k: string, v: string, t: string, rest: string)
    requires '\n' !in t && ClosesAfter(v, t)
    ensures var data := k + "<<" + t + "\n" + v + "\n" + t + "\n" + rest;
      var eol := |k| + |t| + 2;
      HeredocAt(data, |k|, eol, "\n" + t + "\n", eol + 1 + |v|, k, v, rest)
  {
    HeredocOpening(k, v, t, rest);
    HeredocPieces(k, v, t, rest);
  }

  /** The opening line of a heredoc record ends after the token, and the
      closing delimiter follows the value. */
  lemma HeredocOpening(k: string, v: string, t: string, rest: string)
    requires '\n' !in t && ClosesAfter(v, t)
    ensures var data := k + "<<" + t + "\n" + v + "\n" + t + "\n" + rest;
      var eol := |k| + |t| + 2;
      IndexOf(data, "\n", |k| + 2) == eol &&
      Substring(data, |k| + 2, eol + 1) == t + "\n" &&
      IndexOf(data, "\n" + t + "\n", eol + 1) == eol + 1 + |v|
  {
    HeredocLayout(k, v, t, rest);
    LineEnd(k + "<<" + t, v + "\n" + t + "\n" + rest, |k| + 2);
    HeredocClosing(k + "<<" + t + "\n", v, t, rest);
  }

  /** The key, the value and the rest that an iteration cuts out of a heredoc
      record. */
  lemma HeredocPieces(k: string, v: string, t: string, rest: string)
    ensures var data := k + "<<" + t + "\n" + v + "\n" + t + "\n" + rest;
      var eol := |k| + |t| + 2;
      Substring(data, 0, |k|) == k &&
      Substring(data, eol + 1, eol + 1 + |v|) == v &&
      Substring(data, eol + 1 + |v| + |"\n" + t + "\n"|, |data|) == rest
  {
    HeredocLayout(k, v, t, rest);
  }

  /** A `k<<t\nv\nt\n` record sets `k` to `v` and hands the rest to the search
      the dialect makes after a heredoc. */
  lemma RunHeredoc(k: string, v: string, t: string, rest: string, props: map<string, string>,
                   search: Search, d: Dialect)
    requires search == AnySeparator ==> KeyOk(k)
    requires NoAngle(k) && NoAngleTail(k)
    requires '\n' !in t && ClosesAfter(v, t)
    ensures var data := k + "<<" + t + "\n" + v + "\n" + t + "\n" + rest;
      Run(State(data, Locate(data, search), props), d)
        == Run(State(rest, Locate(rest, AfterHeredoc(d)), props[k := v]), d)
  {
    HeredocRecordRun(k, v, t, rest, props, d);
    LocateHeredocRecord(k, v, t, rest, search);
  }

  /** The run from the `<<` of a heredoc record `k<<t\nv\nt\n`. */
  lemma HeredocRecordRun(k: string, v: string, t: string, rest: string, props: map<string, string>, d: Dialect)
    requires '\n' !in t && ClosesAfter(v, t)
    ensures var data := k + "<<" + t + "\n" + v + "\n" + t + "\n" + rest;
      Run(State(data, |k|, props), d) == Run(State(rest, Locate(rest, AfterHeredoc(d)), props[k := v]), d)
  {
    var data := k + "<<" + t + "\n" + v + "\n" + t + "\n" + rest;
    var eol := |k| + |t| + 2;
    HeredocPositions(k, v, t, rest);
    HeredocStep(State(data, |k|, props), eol, "\n" + t + "\n", eol + 1 + |v|, k, v, rest, d);
  }

  /** The closing delimiter is found right after the value. */
  lemma HeredocClosing(a: string, v: string, t: string, rest: string)
    requires ClosesAfter(v, t)
    ensures IndexOf(a + (v + "\n" + t + "\n") + rest, "\n" + t + "\n", |a|) == |a| + |v|
  {
    var b := v + "\n" + t + "\n";
    var delimiter := "\n" + t + "\n";
    var data := a + b + rest;
    MatchShift(a, b, rest, delimiter, |v|);
    assert b[|v|..|v| + |delimiter|] == delimiter;
    MatchAtSlice(b, delimiter, |v|);
    forall j | |a| <= j < |a| + |v| ensures !MatchAt(data, delimiter, j) {
      var i := j - |a|;
      assert !MatchAt(b, delimiter, i);
      MatchShift(a, b, rest, delimiter, i);
    }
    IndexOfIs(data, delimiter, |a|, |a| + |v|);
  }

  // ---------------------------------------------------------------------
  // Round trips
  // ---------------------------------------------------------------------

  lemma {:induction false} RunStringified(entries: seq<(string, string)>, tokens: seq<string>,
                                          props: map<string, string>, search: Search, d: Dialect)
    requires |tokens| == |entries| && EntriesOk(entries, tokens)
    requires search == DoubleAngleOnly ==> forall i :: 0 <= i < |entries| ==> '\n' in entries[i].1
    requires d == AsWritten ==> SingleLinesFirst(entries)
    requires d == Corrected ==> search == AnySeparator
    ensures var data := Stringify(entries, tokens);
      Run(State(data, Locate(data, search), props), d) == Parsed(Apply(props, entries))
  {
    var data := Stringify(entries, tokens);
    if entries == [] {
      assert data == [];
      if search == DoubleAngleOnly {
        assert IndexOf(data, "<<", 0) == -1;
      }
    } else {
      var k, v, t := entries[0].0, entries[0].1, tokens[0];
      var rest := Stringify(entries[1..], tokens[1..]);
      assert EntryOk(k, v, t);
      assert EntriesOk(entries[1..], tokens[1..]) by {
        forall i | 0 <= i < |entries| - 1
          ensures EntryOk(entries[1..][i].0, entries[1..][i].1, tokens[1..][i])
        {
          assert EntryOk(entries[i + 1].0, entries[i + 1].1, tokens[i + 1]);
        }
      }
      assert d == AsWritten ==> SingleLinesFirst(entries[1..]) by {
        if d == AsWritten {
          forall i, j | 0 <= i < j < |entries| - 1 && '\n' in entries[1..][i].1
            ensures '\n' in entries[1..][j].1
          {
            assert '\n' in entries[i + 1].1 ==> '\n' in entries[j + 1].1;
          }
        }
      }
      if '\n' !in v {
        assert '\n' !in entries[0].1;
        RunSingleLine(k, v, rest, props, d);
        assert data == k + "=" + v + "\n" + rest;
        RunStringified(entries[1..], tokens[1..], props[k := v], AnySeparator, d);
      } else {
        KeyHasNoAngle(k);
        RunHeredoc(k, v, t, rest, props, search, d);
        assert data == k + "<<" + t + "\n" + v + "\n" + t + "\n" + rest;
        assert AfterHeredoc(d) == DoubleAngleOnly ==>
          forall i :: 0 <= i < |entries| - 1 ==> '\n' in entries[1..][i].1 by {
          if d == AsWritten {
            forall i | 0 <= i < |entries| - 1 ensures '\n' in entries[1..][i].1 {
              assert '\n' in entries[0].1 ==> '\n' in entries[i + 1].1;
            }
          }
        }
        RunStringified(entries[1..], tokens[1..], props[k := v], AfterHeredoc(d), d);
      }
    }
  }

  /** parse(stringify(S)) == S when no single-line entry comes after a
      multi-line one and every entry is admissible. */
  lemma RoundTrip(entries: seq<(string, string)>, tokens: seq<string>)
    requires |tokens| == |entries| && EntriesOk(entries, tokens)
    requires SingleLinesFirst(entries)
    ensures Parse(Stringify(entries, tokens)) == Parsed(ToMap(entries))
  {
    RunStringified(entries, tokens, map[], AnySeparator, AsWritten);
  }

  /** Round trip for entry lists whose values are all single-line: keys need
      only be free of `=` and `<<`, the tokens are never used. */
  lemma RoundTripSingleLine(entries: seq<(string, string)>, tokens: seq<string>)
    requires |tokens| == |entries|
    requires forall i :: 0 <= i < |entries| ==> KeyOk(entries[i].0) && '\n' !in entries[i].1
    ensures Parse(Stringify(entries, tokens)) == Parsed(ToMap(entries))
  {
    assert EntriesOk(entries, tokens) by {
      forall i | 0 <= i < |entries| ensures EntryOk(entries[i].0, entries[i].1, tokens[i]) {
        assert KeyOk(entries[i].0) && '\n' !in entries[i].1;
      }
    }
    RoundTrip(entries, tokens);
  }

  /** Round trip for one multi-line entry. */
  lemma RoundTripOneHeredoc(k: string, v: string, t: string)
    requires KeyOk(k) && NoAngleTail(k) && '\n' in v
    requires '\n' !in t && ClosesAfter(v, t)
    ensures Parse(StringifyKeyValue(k, v, t)) == Parsed(map[k := v])
  {
    var data := StringifyKeyValue(k, v, t);
    assert data == k + "<<" + t + "\n" + v + "\n" + t + "\n" + "";
    KeyHasNoAngle(k);
    RunHeredoc(k, v, t, "", map[], AnySeparator, AsWritten);
    assert IndexOf("", "<<", 0) == -1;
  }

  /** With the corrected search after a heredoc every admissible entry list
      round-trips, in any order. */
  lemma RoundTripCorrected(entries: seq<(string, string)>, tokens: seq<string>)
    requires |tokens| == |entries| && EntriesOk(entries, tokens)
    ensures ParseCorrected(Stringify(entries, tokens)) == Parsed(ToMap(entries))
  {
    RunStringified(entries, tokens, map[], AnySeparator, Corrected);
  }

  /** A token whose first character is no line feed and does not occur in the
      value closes the value where the writer put it. */
  lemma ClosesAfterFreshToken(v: string, t: string)
    requires t != [] && t[0] != '\n' && t[0] !in v
    ensures ClosesAfter(v, t)
  {
    var b := v + "\n" + t + "\n";
    var delimiter := "\n" + t + "\n";
    forall i | 0 <= i < |v| ensures !MatchAt(b, delimiter, i) {
      MatchAtSlice(b, delimiter, i);
      if i + 1 < |v| {
        assert b[i + 1] == v[i + 1];
      } else {
        assert b[i + 1] == '\n';
      }
      assert b[i..i + |delimiter|][1] == b[i + 1];
    }
  }
}

=== FILE: trim_indent.dfy ===
/** trimIndent on a plain string: drop the line breaks around the text and
    its trailing whitespace, then remove the shortest leading run of spaces
    or of tabs from every line that starts with it. */
module TrimIndent {
  import opened JsString

  datatype Option<T> = None | Some(value: T)

  /** The characters the regular-expression class `\s` matches. */
  predicate IsWs(c: char)
  {
    var n := c as int;
    n == 0x09 || n == 0x0A || n == 0x0B || n == 0x0C || n == 0x0D || n == 0x20 ||
    n == 0xA0 || n == 0x1680 || 0x2000 <= n <= 0x200A || n == 0x2028 || n == 0x2029 ||
    n == 0x202F || n == 0x205F || n == 0x3000 || n == 0xFEFF
  }

  /** The characters of the class `[\r\n]`. */
  predicate IsBreak(c: char)
  {
    c == '\r' || c == '\n'
  }

  /** The length of `line[..end]` without its trailing whitespace. */
  function TrimmedLength(line: string, end: nat): (n: nat)
    requires end <= |line|
    ensures n <= end && (n == 0 || !IsWs(line[n - 1]))
    decreases end
  {
    if end > 0 && IsWs(line[end - 1]) then TrimmedLength(line, end - 1) else end
  }

  lemma {:induction false} TrimmedLengthWs(line: string, end: nat)
    requires end <= |line|
    ensures forall i :: TrimmedLength(line, end) <= i < end ==> IsWs(line[i])
    decreases end
  {
    if end > 0 && IsWs(line[end - 1]) {
      TrimmedLengthWs(line, end - 1);
    }
  }

  /** trimEnd: the line without its trailing whitespace; `TrimEndRemovesWs`
      says that only whitespace is removed. */
  function TrimEnd(line: string): (r: string)
    ensures |r| <= |line| && r == line[..|r|]
    ensures r == [] || !IsWs(r[|r| - 1])
  {
    line[..TrimmedLength(line, |line|)]
  }

  lemma TrimEndRemovesWs(line: string)
    ensures forall i :: |TrimEnd(line)| <= i < |line| ==> IsWs(line[i])
  {
    TrimmedLengthWs(line, |line|);
  }

  /** A line of whitespace trims to nothing. */
  lemma TrimEndAllWs(line: string)
    requires forall i :: 0 <= i < |line| ==> IsWs(line[i])
    ensures TrimEnd(line) == []
  {
  }

  /** The end of the run of `\r` and `\n` that starts at `k`. */
  function BreakRunEnd(s: string, k: nat): (e: nat)
    requires k <= |s|
    ensures k <= e <= |s| && (e == |s| || !IsBreak(s[e]))
    decreases |s| - k
  {
    if k < |s| && IsBreak(s[k]) then BreakRunEnd(s, k + 1) else k
  }

  lemma {:induction false} BreakRunEndAll(s: string, k: nat)
    requires k <= |s|
    ensures forall i :: k <= i < BreakRunEnd(s, k) ==> IsBreak(s[i])
    decreases |s| - k
  {
    if k < |s| && IsBreak(s[k]) {
      BreakRunEndAll(s, k + 1);
    }
  }

  /** The start of the run of `\r` and `\n` that ends at `e`. */
  function BreakRunStart(s: string, e: nat): (b: nat)
    requires e <= |s|
    ensures b <= e && (b == 0 || !IsBreak(s[b - 1]))
    decreases e
  {
    if e > 0 && IsBreak(s[e - 1]) then BreakRunStart(s, e - 1) else e
  }

  lemma {:induction false} BreakRunStartAll(s: string, e: nat)
    requires e <= |s|
    ensures forall i :: BreakRunStart(s, e) <= i < e ==> IsBreak(s[i])
    decreases e
  {
    if e > 0 && IsBreak(s[e - 1]) {
      BreakRunStartAll(s, e - 1);
    }
  }

  /** The length of the leading run of `\r` and `\n`: what `^[\r\n]*` matches. */
  function LeadingBreaks(s: string): (n: nat)
    ensures n <= |s|
    ensures n == |s| || !IsBreak(s[n])
  {
    BreakRunEnd(s, 0)
  }

  lemma LeadingBreaksAll(s: string)
    ensures forall i :: 0 <= i < LeadingBreaks(s) ==> IsBreak(s[i])
  {
    BreakRunEndAll(s, 0);
  }

  /** The length of the trailing run of `\r` and `\n`: what `[\r\n]*$` matches. */
  function TrailingBreaks(s: string): (n: nat)
    ensures n <= |s|
    ensures n == |s| || !IsBreak(s[|s| - n - 1])
  {
    |s| - BreakRunStart(s, |s|)
  }

  lemma TrailingBreaksAll(s: string)
    ensures forall i :: |s| - TrailingBreaks(s) <= i < |s| ==> IsBreak(s[i])
  {
    BreakRunStartAll(s, |s|);
  }

  /** The text with the line breaks around it cut off, right-trimmed. */
  function EdgeTrim(content: string): string
  {
    var first, last := LeadingBreaks(content), TrailingBreaks(content);
    TrimEnd(Substring(content, first, |content| - last))
  }

  /** The edge-trimmed text is the part of `content` after its leading line
      breaks and before its trailing whitespace, and ends in no whitespace. */
  lemma EdgeTrimSpec(content: string)
    ensures var r := EdgeTrim(content); var lead := LeadingBreaks(content);
      lead + |r| <= |content| && r == content[lead..lead + |r|] &&
      (forall i :: lead + |r| <= i < |content| ==> IsWs(content[i])) &&
      (r == [] || !IsWs(r[|r| - 1]))
  {
    if LeadingBreaks(content) <= |content| - TrailingBreaks(content) {
      EdgeTrimApart(content);
    } else {
      EdgeTrimOverlap(content);
    }
  }

  /** The usual case: the leading and trailing line breaks do not overlap. */
  lemma EdgeTrimApart(content: string)
    requires LeadingBreaks(content) <= |content| - TrailingBreaks(content)
    ensures var r := EdgeTrim(content); var lead := LeadingBreaks(content);
      lead + |r| <= |content| && r == content[lead..lead + |r|] &&
      (forall i :: lead + |r| <= i < |content| ==> IsWs(content[i]))
  {
    var lead, end := LeadingBreaks(content), |content| - TrailingBreaks(content);
    assert Substring(content, lead, end) == content[lead..end];
    TrailingBreaksAll(content);
    TrimBeforeBreaks(content, lead, end);
  }

  /** Right-trimming `s[a..b]` when only line breaks follow `b`: the result
      stands at `a` and only whitespace follows it. */
  lemma TrimBeforeBreaks(s: string, a: nat, b: nat)
    requires a <= b <= |s|
    requires forall i :: b <= i < |s| ==> IsBreak(s[i])
    ensures var r := TrimEnd(s[a..b]);
      a + |r| <= |s| && r == s[a..a + |r|] &&
      (forall i :: a + |r| <= i < |s| ==> IsWs(s[i]))
  {
    var mid := s[a..b];
    var r := TrimEnd(mid);
    TrimEndRemovesWs(mid);
    forall i | a + |r| <= i < b ensures IsWs(s[i]) {
      assert s[i] == mid[i - a];
    }
  }

  /** Text made only of line breaks: both runs are the whole text, the two
      ends of `substring` are swapped, and all of it is trimmed away. */
  lemma EdgeTrimOverlap(content: string)
    requires LeadingBreaks(content) > |content| - TrailingBreaks(content)
    ensures EdgeTrim(content) == [] && LeadingBreaks(content) == |content|
  {
    var lead, last := LeadingBreaks(content), TrailingBreaks(content);
    var mid := content[|content| - last..lead];
    assert Substring(content, lead, |content| - last) == mid;
    TrailingBreaksAll(content);
    assert forall i :: 0 <= i < |mid| ==> IsWs(mid[i]);
    TrimEndAllWs(mid);
  }

  /** The length of the leading run of `c` in `s`. */
  function RunOf(s: string, c: char): (n: nat)
    ensures n <= |s|
    ensures n == |s| || s[n] != c
  {
    if s != [] && s[0] == c then 1 + RunOf(s[1..], c) else 0
  }

  lemma {:induction false} RunOfAll(s: string, c: char)
    ensures forall i :: 0 <= i < RunOf(s, c) ==> s[i] == c
    decreases |s|
  {
    if s != [] && s[0] == c {
      RunOfAll(s[1..], c);
    }
  }

  /** The line starts with a space or a tab. */
  predicate StartsIndented(line: string)
  {
    line != [] && (line[0] == ' ' || line[0] == '\t')
  }

  /** What `^([ ]+|[\t]+)` captures: the leading run of spaces, or of tabs,
      when the line starts with one. */
  function IndentOf(line: string): (r: Option<string>)
    ensures r.None? <==> !StartsIndented(line)
    ensures r.Some? ==>
      1 <= |r.value| <= |line| && r.value == line[..|r.value|] &&
      (|r.value| == |line| || line[|r.value|] != line[0])
    ensures r.Some? ==> forall i :: 0 <= i < |r.value| ==> r.value[i] == line[0]
  {
    if StartsIndented(line) then
      RunOfAll(line, line[0]);
      Some(line[..RunOf(line, line[0])])
    else None
  }

  /** The loop's update of the smallest indent found so far by the indent of
      the next line. */
  function Keep(smallest: Option<string>, indent: Option<string>): Option<string>
  {
    if indent.Some? && indent.value != "" && (smallest.None? || smallest.value == "") then indent
    else if indent.Some? && smallest.Some? && |indent.value| < |smallest.value| then indent
    else smallest
  }

  /** The smallest indent among `lines`, as the loop over them finds it. */
  function SmallestIndentOf(lines: seq<string>): Option<string>
  {
    if lines == [] then None
    else Keep(SmallestIndentOf(lines[..|lines| - 1]), IndentOf(lines[|lines| - 1]))
  }

  /** Line `i` holds the first of the shortest indents among `lines`. */
  ghost predicate FirstShortest(lines: seq<string>, i: int)
  {
    0 <= i < |lines| && IndentOf(lines[i]).Some? &&
    (forall j :: 0 <= j < |lines| && IndentOf(lines[j]).Some? ==>
       |IndentOf(lines[i]).value| <= |IndentOf(lines[j]).value|) &&
    (forall j :: 0 <= j < i && IndentOf(lines[j]).Some? ==>
       |IndentOf(lines[i]).value| < |IndentOf(lines[j]).value|)
  }

  /** No indent is found exactly when no line is indented. */
  lemma {:induction false} SmallestNone(lines: seq<string>)
    ensures SmallestIndentOf(lines).None? <==> forall i :: 0 <= i < |lines| ==> IndentOf(lines[i]).None?
  {
    if lines != [] {
      var init := lines[..|lines| - 1];
      SmallestNone(init);
      assert forall i :: 0 <= i < |init| ==> init[i] == lines[i];
    }
  }

  /** The indent found is that of the first line among those with the
      shortest indent. */
  lemma {:induction false} SmallestFirstShortest(lines: seq<string>)
    requires SmallestIndentOf(lines).Some?
    ensures exists i :: FirstShortest(lines, i) && SmallestIndentOf(lines) == IndentOf(lines[i])
  {
    var init := lines[..|lines| - 1];
    var last := |lines| - 1;
    var indent := IndentOf(lines[last]);
    if SmallestIndentOf(init).None? {
      SmallestNone(init);
      ShortestIsLast(lines);
    } else {
      SmallestFirstShortest(init);
      var i :| FirstShortest(init, i) && SmallestIndentOf(init) == IndentOf(init[i]);
      var small := SmallestIndentOf(init).value;
      if indent.Some? && |indent.value| < |small| {
        ShortestIsLast(lines);
      } else {
        ShortestStays(lines, i);
      }
    }
  }

  /** A line whose indent is shorter than every indent before it is the first
      of the shortest. */
  lemma ShortestIsLast(lines: seq<string>)
    requires |lines| >= 1 && IndentOf(lines[|lines| - 1]).Some?
    requires var n := |IndentOf(lines[|lines| - 1]).value|; var init := lines[..|lines| - 1];
      forall j :: 0 <= j < |init| && IndentOf(init[j]).Some? ==> n < |IndentOf(init[j]).value|
    ensures FirstShortest(lines, |lines| - 1)
  {
    assert forall j :: 0 <= j < |lines| - 1 ==> lines[..|lines| - 1][j] == lines[j];
  }

  /** The first of the shortest before the last line stays so when the last
      line's indent is not shorter. */
  lemma ShortestStays(lines: seq<string>, i: int)
    requires |lines| >= 1 && FirstShortest(lines[..|lines| - 1], i)
    requires var indent := IndentOf(lines[|lines| - 1]);
      indent.None? || |IndentOf(lines[i]).value| <= |indent.value|
    ensures FirstShortest(lines, i)
  {
    assert forall j :: 0 <= j < |lines| - 1 ==> lines[..|lines| - 1][j] == lines[j];
  }

  /** A line that starts with `prefix`. */
  predicate StartsWith(line: string, prefix: string)
  {
    |prefix| <= |line| && line[..|prefix|] == prefix
  }

  /** The callback of the final `map`: the line without `indent` when it
      starts with it, right-trimmed. */
  function DedentLine(line: string, indent: string): string
  {
    TrimEnd(if StartsWith(line, indent) then line[|indent|..] else line)
  }

  function Dedent(lines: seq<string>, indent: string): seq<string>
  {
    seq(|lines|, i requires 0 <= i < |lines| => DedentLine(lines[i], indent))
  }

  /** What trimIndent does to the edge-trimmed text `str`. */
  function Reindent(str: string): string
  {
    match SmallestIndentOf(Split(str))
    case None => str
    case Some(indent) => Join(Dedent(Split(str), indent))
  }

  /** trimIndent(content) for a string argument. */
  function TrimIndentOf(content: string): string
  {
    Reindent(EdgeTrim(content))
  }

  /** The loop of trimIndent over the lines of the edge-trimmed text. */
  method FindSmallestIndent(lines: seq<string>) returns (smallestIndent: Option<string>)
    ensures smallestIndent == SmallestIndentOf(lines)
  {
    smallestIndent := None;
    for i := 0 to |lines|
      invariant smallestIndent == SmallestIndentOf(lines[..i])
    {
      var indent := IndentOf(lines[i]);
      assert lines[..i + 1][..i] == lines[..i];
      if indent.Some? && indent.value != "" && (smallestIndent.None? || smallestIndent.value == "") {
        smallestIndent := indent;
      } else if indent.Some? && smallestIndent.Some? && |indent.value| < |smallestIndent.value| {
        smallestIndent := indent;
      }
    }
    assert lines[..|lines|] == lines;
  }

  /** trimIndent: edge-trim, find the smallest indent line by line, then
      dedent every line. */
  method TrimIndent(content: string) returns (r: string)
    ensures r == TrimIndentOf(content)
    ensures r == [] || !IsWs(r[|r| - 1])
  {
    var firstLines := LeadingBreaks(content);
    var lastLines := TrailingBreaks(content);
    var str := TrimEnd(Substring(content, firstLines, |content| - lastLines));
    assert str == EdgeTrim(content);
    var lines := Split(str);
    var smallestIndent := FindSmallestIndent(lines);
    TrimIndentNoTrailingWs(content);
    if smallestIndent.None? {
      assert Reindent(str) == str;
      return str;
    }
    assert Reindent(str) == Join(Dedent(lines, smallestIndent.value));
    return Join(Dedent(lines, smallestIndent.value));
  }

  // ---------------------------------------------------------------------
  // What trimIndent promises
  // ---------------------------------------------------------------------

  /** Text made only of whitespace trims to the empty string. */
  lemma TrimIndentAllWhitespace(content: string)
    requires forall i :: 0 <= i < |content| ==> IsWs(content[i])
    ensures TrimIndentOf(content) == ""
  {
    var str := EdgeTrim(content);
    EdgeTrimSpec(content);
    assert str == [];
    assert Split(str) == [""];
    assert IndentOf("").None?;
  }

  /** Text without an indented line is only edge-trimmed: inner lines keep
      their trailing whitespace. */
  lemma TrimIndentUnindented(content: string)
    requires forall line :: line in Split(EdgeTrim(content)) ==> !StartsIndented(line)
    ensures TrimIndentOf(content) == EdgeTrim(content)
  {
    ReindentUnindented(EdgeTrim(content));
  }

  lemma ReindentUnindented(str: string)
    requires forall line :: line in Split(str) ==> !StartsIndented(line)
    ensures Reindent(str) == str
  {
    var lines := Split(str);
    forall i | 0 <= i < |lines| ensures IndentOf(lines[i]).None? {
      assert !StartsIndented(lines[i]);
    }
    SmallestNone(lines);
  }

  /** The empty text has no indented line. */
  lemma EmptyUnindented(str: string)
    ensures str == [] ==> SmallestIndentOf(Split(str)).None?
  {
    if str == [] {
      assert Split(str) == [""];
      assert IndentOf("").None?;
    }
  }

  /** The indent found is a non-empty run of spaces only, or of tabs only. */
  lemma IndentIsBlank(lines: seq<string>)
    requires SmallestIndentOf(lines).Some?
    ensures var indent := SmallestIndentOf(lines).value;
      indent != [] &&
      ((forall i :: 0 <= i < |indent| ==> indent[i] == ' ') ||
       (forall i :: 0 <= i < |indent| ==> indent[i] == '\t'))
  {
    SmallestFirstShortest(lines);
    var i :| FirstShortest(lines, i) && SmallestIndentOf(lines) == IndentOf(lines[i]);
  }

  /** The last line of the right-trimmed text ends in its last character. */
  lemma LastLine(str: string)
    requires str != [] && !IsWs(str[|str| - 1])
    ensures var lines := Split(str); var last := lines[|lines| - 1];
      last != [] && last[|last| - 1] == str[|str| - 1]
  {
    var lines := Split(str);
    JoinSplit(str);
    JoinEndsWithLast(lines);
    if |lines| > 1 {
      JoinLast(lines);
    }
  }

  /** With two lines or more, the text before the last line ends in a line
      feed. */
  lemma {:induction false} JoinLast(lines: seq<string>)
    requires |lines| >= 2
    ensures Join(lines) == Join(lines[..|lines| - 1]) + "\n" + lines[|lines| - 1]
  {
    if |lines| > 2 {
      JoinLast(lines[1..]);
      assert lines[1..][..|lines| - 2] == lines[..|lines| - 1][1..];
    }
  }

  /** Dedenting a line that ends in a non-whitespace character keeps that
      character at its end. */
  lemma DedentLineKeepsLast(line: string, indent: string)
    requires line != [] && !IsWs(line[|line| - 1])
    requires forall i :: 0 <= i < |indent| ==> indent[i] == ' ' || indent[i] == '\t'
    ensures var out := DedentLine(line, indent); out != [] && out[|out| - 1] == line[|line| - 1]
  {
    if StartsWith(line, indent) && indent != [] {
      assert line[|indent| - 1] == indent[|indent| - 1];
    }
  }

  /** The result of dedenting text whose last character is not whitespace
      ends in that character. */
  lemma ReindentNoTrailingWs(str: string)
    requires str == [] || !IsWs(str[|str| - 1])
    ensures var r := Reindent(str); r == [] || !IsWs(r[|r| - 1])
  {
    var lines := Split(str);
    EmptyUnindented(str);
    match SmallestIndentOf(lines)
    case None =>
    case Some(indent) =>
      LastLine(str);
      IndentIsBlank(lines);
      DedentKeepsLast(lines, indent);
  }

  /** Dedenting lines whose last one ends in a non-whitespace character gives
      a text that ends in that character. */
  lemma DedentKeepsLast(lines: seq<string>, indent: string)
    requires |lines| >= 1
    requires var last := lines[|lines| - 1]; last != [] && !IsWs(last[|last| - 1])
    requires forall i :: 0 <= i < |indent| ==> indent[i] == ' ' || indent[i] == '\t'
    ensures var r := Join(Dedent(lines, indent)); r != [] && !IsWs(r[|r| - 1])
  {
    var out := Dedent(lines, indent);
    DedentLineKeepsLast(lines[|lines| - 1], indent);
    assert out[|out| - 1] == DedentLine(lines[|lines| - 1], indent);
    JoinEndsWithLast(out);
  }

  /** The result never ends in whitespace. */
  lemma TrimIndentNoTrailingWs(content: string)
    ensures var r := TrimIndentOf(content); r == [] || !IsWs(r[|r| - 1])
  {
    EdgeTrimNoTrailingWs(content);
    ReindentNoTrailingWs(EdgeTrim(content));
  }

  lemma EdgeTrimNoTrailingWs(content: string)
    ensures var str := EdgeTrim(content); str == [] || !IsWs(str[|str| - 1])
  {
  }

  /** Dedenting a line adds no line feed to it. */
  lemma DedentLineNoBreak(line: string, indent: string)
    requires '\n' !in line
    ensures '\n' !in DedentLine(line, indent)
  {
    var cut := if StartsWith(line, indent) then line[|indent|..] else line;
    assert forall j :: 0 <= j < |cut| ==> cut[j] in line;
    assert DedentLine(line, indent) == cut[..|DedentLine(line, indent)|];
  }

  /** `out` is `lines` dedented by `indent`: as many lines; a line that starts
      with the indent loses it, the others are kept; every line is
      right-trimmed. */
  ghost predicate DedentedBy(out: seq<string>, lines: seq<string>, indent: string)
  {
    |out| == |lines| &&
    (forall i :: 0 <= i < |lines| && StartsWith(lines[i], indent) ==> out[i] == TrimEnd(lines[i][|indent|..])) &&
    (forall i :: 0 <= i < |lines| && !StartsWith(lines[i], indent) ==> out[i] == TrimEnd(lines[i])) &&
    (forall i :: 0 <= i < |out| ==> out[i] == [] || !IsWs(out[i][|out[i]| - 1]))
  }

  /** When an indent is found, the lines of the result are those of the
      edge-trimmed text dedented by it. */
  lemma TrimIndentLines(content: string, indent: string)
    requires SmallestIndentOf(Split(EdgeTrim(content))) == Some(indent)
    ensures DedentedBy(Split(TrimIndentOf(content)), Split(EdgeTrim(content)), indent)
  {
    var str := EdgeTrim(content);
    ReindentLines(str, indent);
    assert TrimIndentOf(content) == Reindent(str);
    DedentLines(Split(str), indent);
  }

  lemma DedentLines(lines: seq<string>, indent: string)
    ensures DedentedBy(Dedent(lines, indent), lines, indent)
  {
  }

  lemma ReindentLines(str: string, indent: string)
    requires SmallestIndentOf(Split(str)) == Some(indent)
    ensures Split(Reindent(str)) == Dedent(Split(str), indent)
  {
    var lines := Split(str);
    var out := Dedent(lines, indent);
    SplitNoBreak(str);
    forall i | 0 <= i < |out| ensures '\n' !in out[i] {
      DedentLineNoBreak(lines[i], indent);
    }
    SplitJoin(out);
  }

  /** trimIndent("\n    a\n      b\n") is "a\n  b". */
  lemma Example()
    ensures TrimIndentOf("\n    a\n      b\n") == "a\n  b"
  {
    ExampleEdges();
    ExampleReindent();
  }

  lemma ExampleEdges()
    ensures EdgeTrim("\n    a\n      b\n") == "    a\n      b"
  {
    var content := "\n    a\n      b\n";
    assert BreakRunEnd(content, 1) == 1;
    assert LeadingBreaks(content) == 1;
    assert BreakRunStart(content, |content| - 1) == |content| - 1;
    assert TrailingBreaks(content) == 1;
    assert Substring(content, 1, |content| - 1) == content[1..|content| - 1];
    assert content[1..|content| - 1] == "    a\n      b";
  }

  lemma ExampleReindent()
    ensures Reindent("    a\n      b") == "a\n  b"
  {
    assert "    a\n      b" == "    a" + "\n" + "      b";
    SplitTwo("    a", "      b");
    assert "    a" == "    " + "a" && "      b" == "      " + "b";
    IndentOfRun("    ", "a", ' ');
    IndentOfRun("      ", "b", ' ');
    SmallestOfTwo("    a", "      b");
    ExampleDedent();
  }

  /** Two lines without a line feed joined by one split back into the two. */
  lemma SplitTwo(a: string, b: string)
    requires '\n' !in a && '\n' !in b
    ensures Split(a + "\n" + b) == [a, b]
  {
    SplitFirstLine(a, b);
    SplitOneLine(b);
  }

  /** A line made of a run of spaces, or of tabs, and then some other
      character has that run as its indent. */
  lemma IndentOfRun(run: string, rest: string, c: char)
    requires run != [] && (c == ' ' || c == '\t')
    requires forall i :: 0 <= i < |run| ==> run[i] == c
    requires rest == [] || rest[0] != c
    ensures IndentOf(run + rest) == Some(run)
  {
    RunOfPrefix(run, rest, c);
    assert (run + rest)[..|run|] == run;
  }

  /** Of two indented lines, the first keeps the smallest indent unless the
      second's is strictly shorter. */
  lemma SmallestOfTwo(a: string, b: string)
    requires IndentOf(a).Some? && IndentOf(b).Some?
    requires |IndentOf(a).value| <= |IndentOf(b).value|
    ensures SmallestIndentOf([a, b]) == IndentOf(a)
  {
    var lines := [a, b];
    assert lines[..1] == [a];
    assert [a][..0] == [];
    assert SmallestIndentOf([a]) == IndentOf(a);
  }

  lemma {:induction false} RunOfPrefix(run: string, rest: string, c: char)
    requires forall i :: 0 <= i < |run| ==> run[i] == c
    requires rest == [] || rest[0] != c
    ensures RunOf(run + rest, c) == |run|
  {
    if run != [] {
      assert (run + rest)[1..] == run[1..] + rest;
      RunOfPrefix(run[1..], rest, c);
    }
  }

  lemma ExampleDedent()
    ensures Join(Dedent(["    a", "      b"], "    ")) == "a\n  b"
  {
    assert DedentLine("    a", "    ") == "a";
    assert DedentLine("      b", "    ") == "  b";
    assert Dedent(["    a", "      b"], "    ") == ["a", "  b"];
  }

  /** trimIndent("  \tx\n   y") is "\tx\n y": the indent is the run of
      spaces only, so the tab after it stays. */
  lemma MixedIndentExample()
    ensures TrimIndentOf("  \tx\n   y") == "\tx\n y"
  {
    MixedEdges();
    MixedReindent();
  }

  lemma MixedEdges()
    ensures EdgeTrim("  \tx\n   y") == "  \tx\n   y"
  {
    var content := "  \tx\n   y";
    assert LeadingBreaks(content) == 0;
    assert BreakRunStart(content, |content|) == |content|;
    assert TrailingBreaks(content) == 0;
    assert Substring(content, 0, |content|) == content;
    assert TrimmedLength(content, |content|) == |content|;
  }

  lemma MixedReindent()
    ensures Reindent("  \tx\n   y") == "\tx\n y"
  {
    assert "  \tx\n   y" == "  \tx" + "\n" + "   y";
    SplitTwo("  \tx", "   y");
    assert "  \tx" == "  " + "\tx" && "   y" == "   " + "y";
    IndentOfRun("  ", "\tx", ' ');
    IndentOfRun("   ", "y", ' ');
    SmallestOfTwo("  \tx", "   y");
    MixedDedent();
  }

  lemma MixedDedent()
    ensures Join(Dedent(["  \tx", "   y"], "  ")) == "\tx\n y"
  {
    assert DedentLine("  \tx", "  ") == "\tx";
    assert DedentLine("   y", "  ") == " y";
    assert Dedent(["  \tx", "   y"], "  ") == ["\tx", " y"];
  }

}
